=== FILE: README.md ===
# Fort Wayne 311 portal: the rules inside the components

The portal is a React front end for reporting and tracking city service
requests. Its components carry a handful of small, deterministic rules. This
project states those rules as pure Dafny functions over immutable records and
proves what they promise:

- the four-step "Report an Issue" wizard (`RequestStepper`): step validity,
  progress, navigation, submission, the draft edits each step's form makes,
  and a geolocation answer that may arrive after the user has moved on;
- the request tracker (`RequestTracker`): the all / active / resolved tabs, the
  progress per status, the summary counts, the "time ago" label and the latest
  update;
- the smart search box (`SmartSearch`): suggestion matching, the keyboard
  cursor, choosing a suggestion and submitting a trimmed query;
- the toast notifications (`ToastSystem`): adding with a default duration, the
  auto-removal decision, removal by id, clearing, and the preset civic notices;
- the mobile navigation (`MobileNavigation`): accessibility switches, the
  language cycle, language names and the highlighted tab;
- the service category browser (`ServiceCategories`): expand / collapse,
  the grid and list layouts, forwarding of clicks and the priority badge
  colours;
- the "News You Can Use" page (`NewsPage`): the digits-only `tel:` link and the
  911 EMERGENCY badge.

React state hooks become explicit state records, and an event handler becomes
a function from the old state to the new one. A call a handler makes to its
page (`onComplete`, `onSearch`, `onServiceSelect`, `onCategorySelect`) is
returned as a value. An optional callback prop becomes a boolean saying
whether the page supplied it. Clocks and random ids are parameters. Shared
helpers live in `Wrappers` (an `Option` type), `Seqs` (the order-preserving
filter every list uses, deletion by position, `indexOf`, and the subsequence
relation) and `Text` (the JavaScript string operations the components call:
`toLowerCase`, `includes`, `trim`, the `\d` class and number-to-text).

## Model

| member | source | states |
|---|---|---|
| `Seqs.Filter` | src/components/RequestTracker.tsx:154-163 | `Array.prototype.filter`: every element satisfying the predicate is kept as often as it occurs in the input, every other element is dropped (stated per element as a multiset count), and the result is never longer than the input |
| `Seqs.FilterIsSubseq` | src/components/RequestTracker.tsx:154 | filtering keeps the survivors in their original order |
| `Seqs.RemoveAt` | src/components/RequestStepper.tsx:409-411 | `filter((_, i) => i !== index)`: deletes exactly position `index` when it exists and changes nothing otherwise |
| `Seqs.IndexOf` | src/components/MobileNavigation.tsx:68 | `indexOf`: the first position holding the value, and -1 exactly when it is absent |
| `Text.Lower` | src/components/SmartSearch.tsx:87-88 | `toLowerCase` on ASCII letters: same length, every character folded |
| `Text.LowerIdempotent` | src/components/SmartSearch.tsx:87-88 | folding an already folded string changes nothing |
| `Text.ContainsAt` | src/components/SmartSearch.tsx:87-88 | `includes` holds whenever the needle occurs at some position |
| `Text.ContainsWitness` | src/components/SmartSearch.tsx:87-88 | when `includes` holds, a position where the needle occurs exists |
| `Text.Trim` | src/components/SmartSearch.tsx:141-142 | `trim()`: a contiguous slice of the input that neither starts nor ends with ECMAScript white space |
| `Text.TrimIdempotent` | src/components/SmartSearch.tsx:141-142 | trimming a trimmed string changes nothing |
| `Text.TrimEmptyIff` | src/components/SmartSearch.tsx:141 | the trimmed query is empty (falsy) exactly when every character is white space |
| `Text.DecimalRoundTrip` | src/components/ToastSystem.tsx:351 | the decimal text a template literal gives a count reads back as the count |
| `RequestStepper.InitialRequest` | src/components/RequestStepper.tsx:64-87 | each section given in `initialData` replaces the blank section wholesale; an absent section is the blank section as a whole: location `("", (0, 0), "")`, service `("", "", "")`, details with an empty description, medium urgency and blank contact info, and no photos |
| `RequestStepper.InitialWizard` | src/components/RequestStepper.tsx:64 | the wizard opens on step 0 |
| `RequestStepper.StepValidityMeaning` | src/components/RequestStepper.tsx:145-158 | the review step always passes, an index outside the four steps never does, and every step passes exactly when address, service type and description are all non-empty |
| `RequestStepper.BlankWizardBlocked` | src/components/RequestStepper.tsx:145-148 | a wizard opened without initial data cannot leave its first step |
| `RequestStepper.Progress` | src/components/RequestStepper.tsx:160 | the integer percentage equals `(step + 1) / 4 * 100` exactly |
| `RequestStepper.ProgressFacts` | src/components/RequestStepper.tsx:160 | on a valid step the progress is 25, 50, 75 or 100, grows strictly with the step, and is 100 exactly on the review step |
| `RequestStepper.MarkOf` | src/components/RequestStepper.tsx:178-182 | a step is completed iff it is before the current one and active iff it is the current one |
| `RequestStepper.ExactlyOneActive` | src/components/RequestStepper.tsx:176-182 | exactly one of the four indicators is active, and the number of completed ones is the current step |
| `RequestStepper.HandleNext` | src/components/RequestStepper.tsx:131-137 | below the last step: advance by one without completing; on the last step: stay, and `onComplete` receives the draft unmodified; the draft never changes |
| `RequestStepper.HandlePrevious` | src/components/RequestStepper.tsx:139-143 | above step 0: go back one; at step 0: no change; the index stays in range |
| `RequestStepper.PreviousDisabledIsNoOp` | src/components/RequestStepper.tsx:224 | where "Previous" is disabled, pressing it would not have moved anyway |
| `RequestStepper.EditStep` | src/components/RequestStepper.tsx:210-215 | every form edit belongs to the location, service or details step; the review step edits nothing |
| `RequestStepper.EditFrame` | src/components/RequestStepper.tsx:95-120 | an edit changes only the section its step owns, so the validity of every other step is unchanged |
| `RequestStepper.SelectServiceEffect` | src/components/RequestStepper.tsx:358 | choosing a service sets `type` and `category` together, keeps the note, and satisfies the service step |
| `RequestStepper.ContactEditFrame` | src/components/RequestStepper.tsx:510-542 | a contact field edit changes that field only, keeping the other contact fields, the urgency and the description |
| `RequestStepper.PhotoEdits` | src/components/RequestStepper.tsx:404-411 | upload appends the files after the existing photos; removal deletes exactly photo `i` when it exists, keeps the rest in order, and otherwise changes nothing |
| `RequestStepper.DetectClick` | src/components/RequestStepper.tsx:259-262 | the location button, on the location step only, records the location section as it is at the click; step and draft are unchanged |
| `RequestStepper.LocationFoundAsWritten` | src/components/RequestStepper.tsx:263-268 | as written, the callback stores the section captured at the click, with the reported coordinates, over the current location section at whatever step is on screen; the other sections are untouched |
| `RequestStepper.LocationFoundCorrected` | src/components/RequestStepper.tsx:263-268 | corrected, the callback changes only the coordinates of the current location section, so no step's validity changes |
| `RequestStepper.StepWizard` | src/components/RequestStepper.tsx:220-241 | disabled buttons do nothing; completion happens only from the review step with the current draft; no event other than the two buttons moves the step |
| `RequestStepper.StepWizardAsWritten` | src/components/RequestStepper.tsx:259-273 | the code as written differs from the corrected wizard in the location callback alone |
| `RequestStepper.StepKeepsReachable` | src/components/RequestStepper.tsx:131-158 | with the corrected location callback, every event keeps the step in range and every passed step valid |
| `RequestStepper.SubmittedDraftIsComplete` | src/components/RequestStepper.tsx:131-158 | with the corrected location callback, a submitted draft has a non-empty address, service type and description |
| `RequestStepper.RunFromReachable` | src/components/RequestStepper.tsx:131-273 | with the corrected location callback, over any sequence of events (including location answers that arrive on a later step) the invariant holds and every draft handed to `onComplete` is complete |
| `RequestStepper.StaleLocationSubmitted` | src/components/RequestStepper.tsx:259-268 | as written: click detect on an empty draft, type "12 Main St", press Next, and let the answer arrive on the service step. The address reverts to "", the invariant breaks, and the draft later submitted has no address |
| `RequestStepper.FreshLocationSubmitted` | src/components/RequestStepper.tsx:259-268 | corrected: the same run keeps "12 Main St", adds the reported coordinates and submits that draft |
| `RequestStepper.InitialIsReachable` | src/components/RequestStepper.tsx:64-87 | the initial wizard satisfies the invariant |
| `RequestStepper.SubmitExample` | src/components/RequestStepper.tsx:131-137 | a filled-in draft is submitted from the review step with its address, service and description unchanged |
| `RequestTracker.StatusPartition` | src/components/RequestTracker.tsx:229-232 | every status is in exactly one of the active and resolved groups |
| `RequestTracker.FilteredRequests` | src/components/RequestTracker.tsx:154-163 | a tab lists exactly the requests it shows, in input order, never more than the input |
| `RequestTracker.AllTabIsIdentity` | src/components/RequestTracker.tsx:154-163 | the "all" tab lists the input unchanged |
| `RequestTracker.TabsPartition` | src/components/RequestTracker.tsx:154-163 | the active and resolved tabs are disjoint and their lengths add up to the input length |
| `RequestTracker.CalculateProgress` | src/components/RequestTracker.tsx:196-205 | the percentage is within 0..100, is 100 exactly for resolved and closed, and lies in 25..75 for active statuses |
| `RequestTracker.ProgressTable` | src/components/RequestTracker.tsx:196-205 | submitted 25, reopened 50, in progress 75, resolved and closed 100 |
| `RequestTracker.ComputeStats` | src/components/RequestTracker.tsx:229-234 | total is the input length, active and resolved are the tab sizes, and active + resolved = total |
| `RequestTracker.GetTimeAgo` | src/components/RequestTracker.tsx:217-227 | under an hour is "just now"; otherwise the whole hours (under 24) or whole days (under 7) elapsed bound the difference; from 7 days on the date itself is shown |
| `RequestTracker.TimeAgoLabel` | src/components/RequestTracker.tsx:222-226 | "Just now", "<h> hours ago" and "<d> days ago" with the decimal count; no text exactly for the formatted date |
| `RequestTracker.LabelOfElapsed` | src/components/RequestTracker.tsx:217-227 | the label read off the elapsed time: "Just now" under an hour, the whole hours elapsed under a day, the whole days elapsed under a week, and no text from a week on |
| `RequestTracker.FutureIsJustNow` | src/components/RequestTracker.tsx:220-222 | a timestamp not in the past shows "Just now" |
| `RequestTracker.TimeAgoMonotone` | src/components/RequestTracker.tsx:217-227 | an older timestamp never lands in a finer bucket |
| `RequestTracker.LatestUpdate` | src/components/RequestTracker.tsx:364-383 | the latest update exists iff the history is non-empty and is its last entry |
| `RequestTracker.LatestAfterAppend` | src/components/RequestTracker.tsx:364-383 | an appended update becomes the latest one |
| `SmartSearch.MatchesIn` | src/components/SmartSearch.tsx:86-89 | the entries whose text or category contains the query, in order, each kept as often as it occurs in the catalogue and every other entry dropped |
| `SmartSearch.SuggestionsIn` | src/components/SmartSearch.tsx:85-95 | empty for an empty query, otherwise the first min(matches, 8) matches, in order |
| `SmartSearch.AllMatches` | src/components/SmartSearch.tsx:86-89 | exactly the catalogue entries that match, in catalogue order |
| `SmartSearch.SuggestionsFor` | src/components/SmartSearch.tsx:85-95 | at most 8 matching catalogue entries, a prefix of all matches, and none for the empty query |
| `SmartSearch.FewMatchesAllShown` | src/components/SmartSearch.tsx:90 | when at most eight entries match, every match is suggested |
| `SmartSearch.NoMatchNoSuggestions` | src/components/SmartSearch.tsx:86-90 | a query matching nothing gives no suggestions |
| `SmartSearch.CaseInsensitive` | src/components/SmartSearch.tsx:87-88 | the suggestions do not depend on the letter case of the query |
| `SmartSearch.MatchesIgnoreCase` | src/components/SmartSearch.tsx:87-88 | the matches do not depend on the letter case of the query |
| `SmartSearch.InputChange` | src/components/SmartSearch.tsx:82-97 | the query is stored, the suggestions recomputed, the panel open iff the value is non-empty, and the cursor reset to -1 |
| `SmartSearch.SuggestionClick` | src/components/SmartSearch.tsx:128-138 | the query becomes the suggestion's text, the panel closes, the cursor resets; a service goes to `onServiceSelect` if given, anything else to `onSearch` |
| `SmartSearch.Search` | src/components/SmartSearch.tsx:140-145 | `onSearch` receives the trimmed query and the panel closes, exactly when the query is not all white space; otherwise nothing happens |
| `SmartSearch.SearchedQueryIsTrimmed` | src/components/SmartSearch.tsx:140-145 | what `onSearch` receives has no surrounding white space |
| `SmartSearch.KeyDown` | src/components/SmartSearch.tsx:99-126 | keys do nothing while the panel is hidden; Escape hides it and resets the cursor; arrows move only the cursor; other keys do nothing; the cursor stays within -1 and the last suggestion |
| `SmartSearch.ArrowKeys` | src/components/SmartSearch.tsx:103-111 | down moves one place and stops at the last suggestion; up moves one place and stops at -1 |
| `SmartSearch.EnterKey` | src/components/SmartSearch.tsx:112-119 | Enter on a highlighted suggestion chooses it; with none highlighted it searches |
| `SmartSearch.DownThenUp` | src/components/SmartSearch.tsx:103-111 | down then up returns the cursor when down did not have to stop |
| `SmartSearch.Clear` | src/components/SmartSearch.tsx:159-165 | clearing empties the query and the list and resets the cursor; the panel is open afterwards iff the focus call re-runs the field's focus handler, which still sees the old non-empty query |
| `SmartSearch.ClearedBoxIsInert` | src/components/SmartSearch.tsx:100-165 | after clearing no list is shown and no key press reaches the page or brings a query back |
| `SmartSearch.Focus` | src/components/SmartSearch.tsx:198 | focusing opens the panel iff there is a query (or it was open), changing nothing else |
| `SmartSearch.Handle` | src/components/SmartSearch.tsx:196-198 | every user action keeps the cursor in range |
| `SmartSearch.HandleKeepsReachable` | src/components/SmartSearch.tsx:82-165 | every action keeps the shown list an in-order selection of at most 8 catalogue entries with the cursor in range |
| `SmartSearch.RunKeepsReachable` | src/components/SmartSearch.tsx:82-165 | the same holds after any sequence of actions |
| `SmartSearch.InitialIsReachable` | src/components/SmartSearch.tsx:47-51 | the initial state satisfies the invariant |
| `ToastSystem.NewToast` | src/components/ToastSystem.tsx:57-61 | the caller's fields are kept; the duration is the caller's, or 5000 when none is given |
| `ToastSystem.RemovalDelay` | src/components/ToastSystem.tsx:87-91 | removal is scheduled iff the toast is not persistent and its duration is non-zero, after that duration |
| `ToastSystem.AddToast` | src/components/ToastSystem.tsx:55-92 | exactly one toast is appended at the end, the existing ones unchanged and in order, and removal is scheduled as above |
| `ToastSystem.DefaultTimeout` | src/components/ToastSystem.tsx:57-91 | a toast without duration or persistence goes after 5000 ms; a persistent one never does |
| `ToastSystem.RemoveToast` | src/components/ToastSystem.tsx:94-96 | every toast with the id goes; every other toast stays, as many times as it occurred, in order |
| `ToastSystem.RemoveAbsentIsNoOp` | src/components/ToastSystem.tsx:94-96 | removing an id no toast has changes nothing |
| `ToastSystem.RemoveIdempotent` | src/components/ToastSystem.tsx:94-96 | removing the same id twice is removing it once |
| `ToastSystem.AddThenRemove` | src/components/ToastSystem.tsx:55-96 | adding under a fresh id and removing that id restores the list |
| `ToastSystem.RemoveCommutes` | src/components/ToastSystem.tsx:94-96 | removals of two ids can happen in either order |
| `ToastSystem.RemoveFromProvider` | src/components/ToastSystem.tsx:94-96 | removal changes the list only |
| `ToastSystem.ClearAllToasts` | src/components/ToastSystem.tsx:98-100 | no toast remains and the notification toggle stays |
| `ToastSystem.ClearAllThenRemove` | src/components/ToastSystem.tsx:94-100 | after clearing, a removal has nothing to do |
| `ToastSystem.ToggleNotifications` | src/components/ToastSystem.tsx:109 | the bell flips the notification setting and keeps the list |
| `ToastSystem.PhotoNoun` | src/components/ToastSystem.tsx:351 | "photos" exactly when more than one photo, else "photo" |
| `ToastSystem.PhotoUploaded` | src/components/ToastSystem.tsx:346-354 | a success notice titled "Photos Uploaded": the count, then a space, `PhotoNoun(count)` and " uploaded successfully."; it lasts 2000 ms and is not persistent |
| `ToastSystem.RequestNoticesUseDefault` | src/components/ToastSystem.tsx:288-334 | the three request notices are removed after the 5000 ms default |
| `ToastSystem.ShortNoticeLifetimes` | src/components/ToastSystem.tsx:336-354 | the location notice goes after 3000 ms and the upload notice after 2000 ms |
| `ToastSystem.PersistentNotices` | src/components/ToastSystem.tsx:356-381 | the network-error and maintenance notices are never removed automatically |
| `MobileNavigation.ToggleAccessibility` | src/components/MobileNavigation.tsx:59-64 | flips exactly the chosen switch and leaves the other switch and the language |
| `MobileNavigation.ToggleAccessibilityTwice` | src/components/MobileNavigation.tsx:59-64 | flipping a switch twice restores the settings |
| `MobileNavigation.ToggleAccessibilityCommutes` | src/components/MobileNavigation.tsx:59-64 | flipping two switches gives the same settings in either order |
| `MobileNavigation.ToggleLanguage` | src/components/MobileNavigation.tsx:66-74 | the next language is always a known one, the switches are kept, and an unknown code moves to "en" |
| `MobileNavigation.LanguageCycle` | src/components/MobileNavigation.tsx:66-74 | the cycle is en, es, my, en |
| `MobileNavigation.ThreeTogglesRestore` | src/components/MobileNavigation.tsx:66-74 | three presses restore settings whose language is known |
| `MobileNavigation.LanguageName` | src/components/MobileNavigation.tsx:76-83 | "es" shows "Español" and "my" the Burmese name; unknown codes show "English"; among known codes only "en" does |
| `MobileNavigation.LanguageNamesDistinct` | src/components/MobileNavigation.tsx:76-83 | the three known codes show three different names |
| `MobileNavigation.ActiveTabs` | src/components/MobileNavigation.tsx:180 | a tab is highlighted exactly when the path equals its target |
| `MobileNavigation.AtMostOneActive` | src/components/MobileNavigation.tsx:37-43 | the targets are distinct, so at most one tab is highlighted, and none for any other path |
| `ServiceCategories.CategoryClick` | src/components/ServiceCategories.tsx:197-200 | clicking the expanded category collapses it, any other click expands the clicked one; the page is told of every click when it listens |
| `ServiceCategories.ExpandedIn` | src/components/ServiceCategories.tsx:224-263 | in the list layout the categories whose services are shown are exactly those whose id is the selected one; the grid layout, the default, shows none |
| `ServiceCategories.CatalogueIdsDistinct` | src/components/ServiceCategories.tsx:42-180 | the catalogue's category ids are distinct |
| `ServiceCategories.AtMostOneExpandedIn` | src/components/ServiceCategories.tsx:195-198 | in either layout, among categories with distinct ids at most one is expanded, and it is the selected one |
| `ServiceCategories.AtMostOneExpanded` | src/components/ServiceCategories.tsx:263 | at most one catalogue category shows its services |
| `ServiceCategories.ClickShowsOnlyClicked` | src/components/ServiceCategories.tsx:197-200 | after a click exactly the clicked category shows its services, or none does; in the grid layout none does |
| `ServiceCategories.DoubleClick` | src/components/ServiceCategories.tsx:197-198 | two clicks on one category restore the state when it or nothing was expanded, and otherwise leave nothing expanded |
| `ServiceCategories.ServiceClick` | src/components/ServiceCategories.tsx:202-204 | the service is forwarded unchanged exactly when the page listens and the service is on screen, under the expanded category of the list layout (ServiceCategories.tsx:263-268); the grid layout offers no service click |
| `ServiceCategories.PriorityColor` | src/components/ServiceCategories.tsx:206-213 | any priority name other than high, medium and low gets the gray default |
| `ServiceCategories.PriorityColorsDistinct` | src/components/ServiceCategories.tsx:206-213 | the three priorities get three distinct badge colours, none of them the default |
| `NewsPage.DigitsOnly` | src/pages/NewsPage.tsx:142 | the result holds only digits; each digit occurs in it exactly as often as in the number, and every other character is dropped |
| `NewsPage.DigitsOnlyIsSubseq` | src/pages/NewsPage.tsx:142 | the digits keep their original order |
| `NewsPage.TelHref` | src/pages/NewsPage.tsx:142 | the link is "tel:" followed by digits only |
| `NewsPage.DigitsOnlyIdempotent` | src/pages/NewsPage.tsx:142 | normalising twice is normalising once, and an all-digit number is unchanged |
| `NewsPage.DigitsOnlyAppend` | src/pages/NewsPage.tsx:142 | normalising a concatenation normalises each part |
| `NewsPage.NormalizeTel` | src/pages/NewsPage.tsx:142 | a left-to-right scan dropping non-digits computes the same digits-only string |
| `NewsPage.SeparatorDropped` | src/pages/NewsPage.tsx:142 | a non-digit between two parts does not reach the link |
| `NewsPage.DigitNumberDialsItself` | src/pages/NewsPage.tsx:142 | an all-digit number links to itself |
| `NewsPage.DashedNumber` | src/pages/NewsPage.tsx:142 | three digit groups joined by dashes dial the groups run together |
| `NewsPage.ExtensionDialled` | src/pages/NewsPage.tsx:142 | as written, the digits of a trailing "Option" are dialled as part of the number |
| `NewsPage.NoiseComplaintExample` | src/pages/NewsPage.tsx:44 | as written, "260-427-1222 Option 1" links to 26042712221 |
| `NewsPage.DialledPart` | src/pages/NewsPage.tsx:44 | the dialled part is the prefix of the number before its first letter |
| `NewsPage.TelLink` | src/pages/NewsPage.tsx:142 | the corrected link: "tel:" followed by digits only, taken in order from the number's digits |
| `NewsPage.TelLinkAgrees` | src/pages/NewsPage.tsx:36-50 | for a number without letters the corrected link equals the original one |
| `NewsPage.GeneralNumberLinks` | src/pages/NewsPage.tsx:36-50 | on the page's general-number list the corrected link equals the original on every entry but the noise-complaint line, whose original link has the option digit appended |
| `NewsPage.OptionLinks` | src/pages/NewsPage.tsx:142 | for a letter-free number followed by " Option " and digits, the original link is the number's link with the option digits appended, the corrected link the number's link alone |
| `NewsPage.NoiseComplaintListed` | src/pages/NewsPage.tsx:44 | on the listed noise-complaint line the original link dials the option digit 1 after the digits the corrected link dials |
| `NewsPage.OptionNotDialled` | src/pages/NewsPage.tsx:44 | with the corrected link, a number followed by "Option" and digits dials the number alone |
| `NewsPage.DashedNumberWithOption` | src/pages/NewsPage.tsx:44 | for a dashed number with an option, the original link dials the groups and the option, the corrected one the groups alone |
| `NewsPage.NoiseComplaintLink` | src/pages/NewsPage.tsx:44 | with the corrected link, the noise-complaint line dials 2604271222 |
| `NewsPage.OneEmergencyBadge` | src/pages/NewsPage.tsx:122 | of the listed three-digit numbers, exactly one shows the EMERGENCY badge: 911 |

## Left out

- Rendering, CSS classes, icons and animations are presentational. This includes the tracker's status icon and colour lookups, the detail view of a selected request, and the search box's icon and badge lookups.
- Browser services are foreign calls with no logic of their own: speech recognition, the `Notification` mirror of a new toast, and `URL.createObjectURL` for photo previews.
- Geolocation is modelled only as an answer that may arrive at any later time, or never. The error callback and a browser without geolocation both amount to no answer. The location button's `isDetecting` disabling is not modelled, so the model allows more clicks than the page does; the properties proved hold for those runs too.
- Whether clicking the clear button takes the focus away from the field depends on the browser; `SmartSearch.Clear` takes it as the parameter `refocused`.
- ToastSystem.RemovalDelay: a negative duration is reported as it is, while `setTimeout` runs such a callback after 0 ms; the model does not normalise the delay.
- Timers are not modelled. The model records only whether and after how long `addToast` schedules the removal; the removal itself is `RemoveToast`. The toast container's exit animation delay is left out as well.
- The random toast id is a parameter.
- `new Date()` and date parsing are not modelled; the current time and the timestamps are integer milliseconds.
- RequestTracker.TimeAgoLabel: the formatted-date bucket yields no text, because locale date formatting is outside the model.
- Text.Lower: case folding covers ASCII letters only, not full Unicode `toLowerCase`.
- Strings are sequences of Unicode characters, not UTF-16 code units. A length in the model can therefore differ from JavaScript's `length` for characters outside the Basic Multilingual Plane.
- ToastSystem.NewToast: an options object that spells out `duration: undefined` is not modelled. Nor is a non-numeric duration (NaN).
- `MobileNavigation.ToggleAccessibility` covers the two boolean switches. The source's signature would also accept `'language'`, but no caller passes it.
- RequestTracker.CalculateProgress: the source's fallback of 0 for an unknown status cannot arise, since the status is an enumeration here.
- Coordinates are carried as reals; floating-point behaviour is not modelled.
- Layout.tsx, ContactPage.tsx, ServiceRequestCard.tsx and HomePage.tsx are not part of this model. They are static markup and routing.
- The generic `toast.success` / `error` / `warning` / `info` helpers are left out. They only call `addToast` with fixed types.
- The tracker's average resolution time is a fixed text, so `RequestTracker.ComputeStats` does not compute it.
- ToastSystem.PhotoUploaded: numbers are rendered as JavaScript renders integers; non-integer counts are not modelled.
- The preset civic notices are modelled as the options they pass to `addToast`. Each preset obtains `addToast` by calling the `useToast` hook inside a plain function (ToastSystem.tsx:287-381), and HomePage.tsx:172 calls one from an event handler, which React's rules of hooks forbid. React's hook dispatcher is outside the model, so that failure is not modelled.

## Findings

| source | as written | input that shows it | evidently intended | confidence | as-written member | corrected member |
|---|---|---|---|---|---|---|
| src/components/RequestStepper.tsx:263-268 | the geolocation callback hands the parent the location section captured when the button was clicked, and the parent stores it whole, at whatever step is on screen by then | click detect on an empty draft, type "12 Main St", press Next; the answer arrives on the service step, the address becomes "" and the draft is later submitted without one | change only the coordinates of the current location section (`setRequestData(prev => …prev.location…)`) | medium, not executed | `RequestStepper.StaleLocationSubmitted` | `RequestStepper.RunFromReachable` |
| src/pages/NewsPage.tsx:142 | the `tel:` link keeps every digit of the listed text, including the menu option after the number | "260-427-1222 Option 1" (src/pages/NewsPage.tsx:44) links to `tel:26042712221`, an eleven-digit number that is not the listed one | dial the ten-digit number 2604271222 and leave the menu option to the caller | medium, not executed | `NewsPage.NoiseComplaintExample` | `NewsPage.NoiseComplaintLink` |

=== FILE: mobile_navigation.dfy ===
/** The mobile navigation bar: the accessibility settings (two boolean
    switches and a language cycled through English, Spanish and Burmese)
    and the bottom tabs, one of which is highlighted for the current path. */
module MobileNavigation {
  import Seqs

  datatype Settings = Settings(highContrast: bool, largeText: bool, language: string)

  const InitialSettings := Settings(false, false, "en")

  /** The two boolean settings the menu switches. */
  datatype Flag = HighContrast | LargeText

  function FlagValue(s: Settings, f: Flag): bool {
    match f
    case HighContrast => s.highContrast
    case LargeText => s.largeText
  }

  /** `toggleAccessibility(f)`: flips that switch and nothing else. */
  function ToggleAccessibility(s: Settings, f: Flag): (r: Settings)
    ensures FlagValue(r, f) == !FlagValue(s, f)
    ensures forall g :: g != f ==> FlagValue(r, g) == FlagValue(s, g)
    ensures r.language == s.language
  {
    match f
    case HighContrast => s.(highContrast := !s.highContrast)
    case LargeText => s.(largeText := !s.largeText)
  }

  /** Flipping a switch twice restores the settings. */
  lemma ToggleAccessibilityTwice(s: Settings, f: Flag)
    ensures ToggleAccessibility(ToggleAccessibility(s, f), f) == s
  {
  }

  /** Flipping two switches gives the same settings in either order. */
  lemma ToggleAccessibilityCommutes(s: Settings, f: Flag, g: Flag)
    ensures ToggleAccessibility(ToggleAccessibility(s, f), g) == ToggleAccessibility(ToggleAccessibility(s, g), f)
  {
  }

  /** The languages, in cycling order. */
  const Languages: seq<string> := ["en", "es", "my"]

  /** `toggleLanguage`: the language after the current one in the list,
      wrapping around; an unknown code has index -1 and so moves to the
      first language. */
  function ToggleLanguage(s: Settings): (r: Settings)
    ensures r.language in Languages
    ensures r.highContrast == s.highContrast && r.largeText == s.largeText
    ensures s.language !in Languages ==> r.language == "en"
  {
    var currentIndex := Seqs.IndexOf(Languages, s.language);
    var nextIndex := (currentIndex + 1) % |Languages|;
    s.(language := Languages[nextIndex])
  }

  /** The cycle is en, es, my, en. */
  lemma LanguageCycle(s: Settings)
    ensures s.language == "en" ==> ToggleLanguage(s).language == "es"
    ensures s.language == "es" ==> ToggleLanguage(s).language == "my"
    ensures s.language == "my" ==> ToggleLanguage(s).language == "en"
  {
    assert Languages[0] == "en" && Languages[1] == "es" && Languages[2] == "my";
  }

  /** Three presses bring any settings back to a known language: exactly
      back where they started when the language was a known one. */
  lemma ThreeTogglesRestore(s: Settings)
    ensures s.language in Languages ==> ToggleLanguage(ToggleLanguage(ToggleLanguage(s))) == s
    ensures ToggleLanguage(ToggleLanguage(ToggleLanguage(s))).language in Languages
  {
    LanguageCycle(s);
    LanguageCycle(ToggleLanguage(s));
    LanguageCycle(ToggleLanguage(ToggleLanguage(s)));
  }

  const EnglishName := "English"

  /** `getLanguageName`: the name shown for a code; unknown codes show
      English, the name of the language an unknown code cycles to. */
  function LanguageName(code: string): (name: string)
    ensures code !in Languages ==> name == EnglishName
    ensures code in Languages ==> (name == EnglishName <==> code == "en")
    ensures code == "es" ==> name == "Espa\U{00F1}ol"
    ensures code == "my" ==> name == "\U{1019}\U{103C}\U{1014}\U{103A}\U{1019}\U{102C}"
  {
    if code == "en" then EnglishName
    else if code == "es" then "Espa\U{00F1}ol"
    else if code == "my" then "\U{1019}\U{103C}\U{1014}\U{103A}\U{1019}\U{102C}"
    else EnglishName
  }

  /** Distinct known codes show distinct names. */
  lemma LanguageNamesDistinct(a: string, b: string)
    requires a in Languages && b in Languages && a != b
    ensures LanguageName(a) != LanguageName(b)
  {
  }

  datatype NavItem = NavItem(name: string, href: string)

  const NavigationItems: seq<NavItem> := [
    NavItem("Home", "/"),
    NavItem("Report", "/report"),
    NavItem("Track", "/track"),
    NavItem("Status", "/status"),
    NavItem("Help", "/help")
  ]

  /** A tab is highlighted when the path is exactly its target. */
  predicate IsActive(pathname: string, item: NavItem) {
    pathname == item.href
  }

  /** The tabs highlighted for a path. */
  function ActiveTabs(pathname: string): (r: seq<NavItem>)
    ensures forall i :: 0 <= i < |r| ==> IsActive(pathname, r[i]) && r[i] in NavigationItems
    ensures forall i :: 0 <= i < |NavigationItems| && IsActive(pathname, NavigationItems[i]) ==>
              NavigationItems[i] in r
  {
    Seqs.Filter((item: NavItem) => IsActive(pathname, item), NavigationItems)
  }

  /** The targets are distinct, so at most one tab is highlighted; a path
      that is not a tab's target (such as "/report/" or "/Track")
      highlights none. */
  lemma AtMostOneActive(pathname: string)
    ensures |ActiveTabs(pathname)| <= 1
    ensures (forall i :: 0 <= i < |NavigationItems| ==> NavigationItems[i].href != pathname) ==>
              ActiveTabs(pathname) == []
  {
  }
}

=== FILE: news_page.dfy ===
/** The "News You Can Use" page's two rules: the `tel:` link of a phone
    number keeps only its digits, and the three-digit number 911 carries
    the EMERGENCY badge. The page's link is `TelHref`, the digits-only link
    as written; `TelLink` is the corrected link, which leaves out the menu
    option some numbers carry and agrees with `TelHref` on every number
    without one. */
module NewsPage {
  import Seqs
  import Text

  /** `number.replace(/[^\d]/g, '')`: the digits of `number`, in order. */
  function DigitsOnly(number: string): (r: string)
    ensures forall k :: 0 <= k < |r| ==> Text.IsDigit(r[k])
    ensures forall k :: 0 <= k < |number| && Text.IsDigit(number[k]) ==> number[k] in r
    ensures |r| <= |number|
    ensures forall c {:trigger multiset(r)[c]} :: multiset(r)[c] == if Text.IsDigit(c) then multiset(number)[c] else 0
  {
    Seqs.Filter(Text.IsDigit, number)
  }

  /** The digits keep their original order: the result is the input with
      characters deleted. */
  lemma DigitsOnlyIsSubseq(number: string)
    ensures Seqs.IsSubseq(DigitsOnly(number), number)
  {
    Seqs.FilterIsSubseq(Text.IsDigit, number);
  }

  /** The link target of a listed number. */
  function TelHref(number: string): (href: string)
    ensures |href| >= 4 && href[..4] == "tel:"
    ensures forall k :: 4 <= k < |href| ==> Text.IsDigit(href[k])
  {
    "tel:" + DigitsOnly(number)
  }

  /** Every character of `s` is a digit. */
  predicate AllDigits(s: string) {
    forall k :: 0 <= k < |s| ==> Text.IsDigit(s[k])
  }

  /** Normalising twice is normalising once, and a string of digits is left
      as it is. */
  lemma DigitsOnlyIdempotent(number: string)
    ensures DigitsOnly(DigitsOnly(number)) == DigitsOnly(number)
    ensures AllDigits(number) ==> DigitsOnly(number) == number
  {
    Seqs.FilterIdempotent(Text.IsDigit, number);
    if AllDigits(number) {
      Seqs.FilterKeepsAll(Text.IsDigit, number);
    }
  }

  /** Normalising a concatenation normalises each part. */
  lemma DigitsOnlyAppend(a: string, b: string)
    ensures DigitsOnly(a + b) == DigitsOnly(a) + DigitsOnly(b)
  {
    Seqs.FilterAppend(Text.IsDigit, a, b);
  }

  /** The global replace as a left-to-right scan that drops every
      non-digit; it produces the digits-only string. */
  method NormalizeTel(number: string) returns (r: string)
    ensures r == DigitsOnly(number)
  {
    r := "";
    var i := 0;
    while i < |number|
      invariant 0 <= i <= |number|
      invariant r == DigitsOnly(number[..i])
    {
      assert number[..i + 1] == number[..i] + [number[i]];
      DigitsOnlyAppend(number[..i], [number[i]]);
      if Text.IsDigit(number[i]) {
        r := r + [number[i]];
      }
      i := i + 1;
    }
    assert number[..i] == number;
  }

  /** A separator between two parts of a number (a dash, a space, a
      parenthesis, a letter of "Option") does not reach the link: only the
      digits on either side do, in order. */
  lemma SeparatorDropped(a: string, c: char, b: string)
    requires !Text.IsDigit(c)
    ensures DigitsOnly(a + [c] + b) == DigitsOnly(a) + DigitsOnly(b)
    ensures TelHref(a + [c] + b) == TelHref(a + b)
  {
    DigitsOnlyAppend(a + [c], b);
    DigitsOnlyAppend(a, [c]);
    DigitsOnlyAppend(a, b);
  }

  /** A number written with digits only dials itself. */
  lemma DigitNumberDialsItself(number: string)
    requires AllDigits(number)
    ensures TelHref(number) == "tel:" + number
  {
    DigitsOnlyIdempotent(number);
  }

  /** The ASCII letters, which begin the menu instructions some listed
      numbers carry. */
  predicate IsLetter(c: char) {
    ('a' <= c <= 'z') || ('A' <= c <= 'Z')
  }

  predicate LetterFree(s: string) {
    forall k :: 0 <= k < |s| ==> !IsLetter(s[k])
  }

  /** A number written as three digit groups joined by dashes dials the
      groups run together. */
  lemma DashedNumber(a: string, b: string, c: string)
    requires AllDigits(a) && AllDigits(b) && AllDigits(c)
    ensures DigitsOnly(a + "-" + b + "-" + c) == a + b + c
    ensures TelHref(a + "-" + b + "-" + c) == "tel:" + (a + b + c)
    ensures LetterFree(a + "-" + b + "-" + c)
  {
    assert a + "-" + b + "-" + c == (a + "-" + b) + ['-'] + c;
    SeparatorDropped(a + "-" + b, '-', c);
    assert a + "-" + b == a + ['-'] + b;
    SeparatorDropped(a, '-', b);
    DigitsOnlyIdempotent(a);
    DigitsOnlyIdempotent(b);
    DigitsOnlyIdempotent(c);
  }

  /** As written, the menu option after a number ("... Option 1") is not
      separated from it: its digits are dialled as part of the number. */
  lemma ExtensionDialled(main: string, ext: string)
    requires AllDigits(ext)
    ensures TelHref(main + " Option " + ext) == TelHref(main) + ext
  {
    DigitsOnlyAppend(main + " Option ", ext);
    DigitsOnlyAppend(main, " Option ");
    Seqs.FilterKeepsNone(Text.IsDigit, " Option ");
    DigitsOnlyIdempotent(ext);
  }

  /** The noise-complaint line "260-427-1222 Option 1" (written here as its
      parts) links to the eleven-digit 26042712221: the ten-digit number
      with the option digit glued on. */
  lemma NoiseComplaintExample()
    ensures TelHref("260" + "-" + "427" + "-" + "1222" + " Option " + "1") == "tel:" + "260" + "427" + "1222" + "1"
  {
    DashedNumberWithOption("260", "427", "1222", "1");
  }

  // ---------------------------------------------------------------------
  // The link with the menu option left out

  /** The part of a listed number that is dialled: everything before the
      first letter, which starts the spoken menu instructions. */
  function DialledPart(number: string): (r: string)
    ensures |r| <= |number| && r == number[..|r|]
    ensures LetterFree(r)
    ensures |r| < |number| ==> IsLetter(number[|r|])
    decreases |number|
  {
    if |number| == 0 || IsLetter(number[0]) then []
    else [number[0]] + DialledPart(number[1..])
  }

  /** The link target that dials only the number itself. */
  function TelLink(number: string): (href: string)
    ensures |href| >= 4 && href[..4] == "tel:"
    ensures forall k :: 4 <= k < |href| ==> Text.IsDigit(href[k])
    ensures Seqs.IsSubseq(href[4..], DigitsOnly(number))
  {
    var p := DialledPart(number);
    assert p + number[|p|..] == number;
    DigitsOnlyAppend(p, number[|p|..]);
    PrefixIsSubseq(DigitsOnly(p), DigitsOnly(number[|p|..]));
    "tel:" + DigitsOnly(p)
  }

  lemma {:induction false} PrefixIsSubseq(a: string, b: string)
    ensures Seqs.IsSubseq(a, a + b)
    decreases |a|
  {
    if |a| > 0 {
      PrefixIsSubseq(a[1..], b);
      assert (a + b)[1..] == a[1..] + b;
    } else {
      assert Seqs.IsSubseq(a, a + b);
    }
  }

  /** A number written without letters (every listed number but the noise
      line) gets the same link as before. */
  lemma TelLinkAgrees(number: string)
    requires LetterFree(number)
    ensures TelLink(number) == TelHref(number)
  {
    DialledPartSkipsLetterFree(number, []);
    assert number + [] == number;
  }

  /** With the menu option left out, a number followed by "Option" and the
      option's digits links to the number alone. */
  lemma OptionNotDialled(main: string, ext: string)
    requires LetterFree(main)
    ensures TelLink(main + " Option " + ext) == TelHref(main)
  {
    var tail := " Option " + ext;
    DialledPartSkipsLetterFree(main, tail);
    assert main + " Option " + ext == main + tail;
    OptionTail(ext);
    DigitsOnlyAppend(main, " ");
    Seqs.FilterKeepsNone(Text.IsDigit, " ");
  }

  /** The dialled part of " Option ..." is the leading space. */
  lemma OptionTail(ext: string)
    ensures DialledPart(" Option " + ext) == " "
  {
    var tail := " Option " + ext;
    assert tail[1..][0] == 'O' && IsLetter('O');
    assert DialledPart(tail[1..]) == [];
  }

  lemma {:induction false} DialledPartSkipsLetterFree(a: string, b: string)
    requires LetterFree(a)
    ensures DialledPart(a + b) == a + DialledPart(b)
    decreases |a|
  {
    if |a| > 0 {
      assert (a + b)[1..] == a[1..] + b;
      assert (a + b)[0] == a[0] && !IsLetter(a[0]);
      DialledPartSkipsLetterFree(a[1..], b);
      assert a == [a[0]] + a[1..];
    } else {
      assert a + b == b;
    }
  }

  /** A dashed number followed by a menu option: as written, the link dials
      the groups and then the option; with the option left out, it dials
      the groups alone. */
  lemma DashedNumberWithOption(a: string, b: string, c: string, ext: string)
    requires AllDigits(a) && AllDigits(b) && AllDigits(c) && AllDigits(ext)
    ensures TelHref(a + "-" + b + "-" + c + " Option " + ext) == "tel:" + (a + b + c + ext)
    ensures TelLink(a + "-" + b + "-" + c + " Option " + ext) == "tel:" + (a + b + c)
  {
    DashedOptionAsWritten(a, b, c, ext);
    DashedOptionCorrected(a, b, c, ext);
  }

  lemma DashedOptionAsWritten(a: string, b: string, c: string, ext: string)
    requires AllDigits(a) && AllDigits(b) && AllDigits(c) && AllDigits(ext)
    ensures TelHref(a + "-" + b + "-" + c + " Option " + ext) == "tel:" + (a + b + c + ext)
  {
    DashedNumber(a, b, c);
    ExtensionDialled(a + "-" + b + "-" + c, ext);
    assert "tel:" + (a + b + c) + ext == "tel:" + (a + b + c + ext);
  }

  lemma DashedOptionCorrected(a: string, b: string, c: string, ext: string)
    requires AllDigits(a) && AllDigits(b) && AllDigits(c) && AllDigits(ext)
    ensures TelLink(a + "-" + b + "-" + c + " Option " + ext) == "tel:" + (a + b + c)
  {
    DashedNumber(a, b, c);
    OptionNotDialled(a + "-" + b + "-" + c, ext);
  }

  /** With the option left out, the noise-complaint line links to its
      ten-digit number 2604271222. */
  lemma NoiseComplaintLink()
    ensures TelLink("260" + "-" + "427" + "-" + "1222" + " Option " + "1") == "tel:" + "260" + "427" + "1222"
  {
    DashedNumberWithOption("260", "427", "1222", "1");
  }

  // ---------------------------------------------------------------------
  // The listed general numbers

  datatype GeneralNumber = GeneralNumber(service: string, number: string)

  const GeneralNumbers: seq<GeneralNumber> := [
    GeneralNumber("AEP (electric company)", "1-800-311-4634"),
    GeneralNumber("Water Company (City Utilities)", "260-427-1234"),
    GeneralNumber("Nipsco (gas company)", "1-800-464-7726"),
    GeneralNumber("Gas Leaks (emergency)", "911"),
    GeneralNumber("Citilink", "260-432-4546"),
    GeneralNumber("Graffiti Hotline", "260-449-4747"),
    GeneralNumber("Drug tip Hotline", "260-427-1262"),
    GeneralNumber("Noise Complaints", "260-427-1222 Option 1"),
    GeneralNumber("Visitor's Bureau", "260-424-3700"),
    GeneralNumber("Better Business Bureau", "260-423-4433"),
    GeneralNumber("BMV", "1-800-692-6841"),
    GeneralNumber("Social Security Office", "260-747-6072"),
    GeneralNumber("Zagster City bike rental", "202-999-3924")
  ]

  /** On the page's own list the corrected link changes one entry only: the
      noise-complaint line, whose original link dials the option digit as
      an eleventh digit. */
  lemma GeneralNumberLinks()
    ensures forall i :: 0 <= i < |GeneralNumbers| && i != 7 ==>
              TelLink(GeneralNumbers[i].number) == TelHref(GeneralNumbers[i].number)
    ensures GeneralNumbers[7].service == "Noise Complaints"
    ensures TelHref(GeneralNumbers[7].number) == TelLink(GeneralNumbers[7].number) + "1"
  {
    forall i | 0 <= i < |GeneralNumbers| && i != 7
      ensures TelLink(GeneralNumbers[i].number) == TelHref(GeneralNumbers[i].number)
    {
      ListedNumberLetterFree(i);
      TelLinkAgrees(GeneralNumbers[i].number);
    }
    NoiseComplaintListed();
  }

  /** Every listed number but the noise line is written without letters. */
  lemma ListedNumberLetterFree(i: int)
    requires 0 <= i < |GeneralNumbers| && i != 7
    ensures LetterFree(GeneralNumbers[i].number)
  {
    var n := GeneralNumbers[i].number;
    assert forall k :: 0 <= k < |n| ==> n[k] in "0123456789-";
  }

  /** The listed noise-complaint line: its original link dials the option
      digit after the digits its corrected link dials. */
  lemma NoiseComplaintListed()
    ensures GeneralNumbers[7].service == "Noise Complaints"
    ensures TelHref(GeneralNumbers[7].number) == TelLink(GeneralNumbers[7].number) + "1"
  {
    var n := GeneralNumbers[7].number;
    var main := n[..12];
    assert n == main + " Option " + "1";
    assert forall k :: 0 <= k < |main| ==> main[k] in "0123456789-";
    OptionLinks(n, main, "1");
  }

  /** A number followed by a menu option: the original link dials the
      option's digits after the number's, the corrected one the number's
      alone. */
  lemma OptionLinks(n: string, main: string, ext: string)
    requires n == main + " Option " + ext && LetterFree(main) && AllDigits(ext)
    ensures TelHref(n) == TelHref(main) + ext
    ensures TelLink(n) == TelHref(main)
  {
    ExtensionDialled(main, ext);
    OptionNotDialled(main, ext);
  }

  // ---------------------------------------------------------------------
  // Three-digit numbers

  datatype ThreeDigitNumber = ThreeDigitNumber(number: string, details: string)

  const EmergencyNumbers: seq<ThreeDigitNumber> := [
    ThreeDigitNumber("211", "(260-744-0700) - First Call for Help (social services/United Way)"),
    ThreeDigitNumber("311", "(260-427-8311) - City Government (for information, to request a city service or report a non-emergency issue)"),
    ThreeDigitNumber("411", "(260-555-1212) Directory Assistance"),
    ThreeDigitNumber("511", "(1-866-227-3555) INDOT"),
    ThreeDigitNumber("711", "(1-800-934-6489) State Relay (TTY - Deaf)"),
    ThreeDigitNumber("811", "(1-800-382-5544) Call before you dig"),
    ThreeDigitNumber("911", "EMERGENCY")
  ]

  /** The EMERGENCY badge is shown for exactly the number "911". */
  predicate ShowsEmergencyBadge(item: ThreeDigitNumber) {
    item.number == "911"
  }

  /** In the listed three-digit numbers exactly one entry, the last, shows
      the badge. */
  lemma OneEmergencyBadge()
    ensures Seqs.Filter(ShowsEmergencyBadge, EmergencyNumbers) == [EmergencyNumbers[6]]
  {
    var s := EmergencyNumbers;
    assert s == s[..6] + [s[6]];
    assert forall i :: 0 <= i < 6 ==> !ShowsEmergencyBadge(s[..6][i]);
    Seqs.FilterKeepsNone(ShowsEmergencyBadge, s[..6]);
    Seqs.FilterKeepsAll(ShowsEmergencyBadge, [s[6]]);
    Seqs.FilterAppend(ShowsEmergencyBadge, s[..6], [s[6]]);
  }
}

=== FILE: request_stepper.dfy ===
/** The four-step "Report an Issue" wizard: a step index over the steps
    location, service type, details and review, a draft request record
    that the step on screen edits, a validity predicate per step that
    enables "Next", and submission of the draft on the last step. */
module RequestStepper {
  import opened Wrappers
  import Seqs

  // ---------------------------------------------------------------------
  // The draft request record

  /** Coordinates reported by the browser; they are carried unchanged. */
  datatype Coordinates = Coordinates(lat: real, lng: real)

  datatype Location = Location(address: string, coordinates: Coordinates, description: string)

  /** The chosen service: `typeId` is the catalogue id (the source's `type`). */
  datatype ServiceChoice = ServiceChoice(typeId: string, category: string, description: string)

  datatype Urgency = Low | Medium | High

  datatype ContactInfo = ContactInfo(name: string, email: string, phone: string)

  datatype Details = Details(description: string, urgency: Urgency, contactInfo: ContactInfo)

  /** An attached file, identified by its name. */
  datatype Photo = Photo(name: string)

  datatype RequestData = RequestData(
    location: Location,
    service: ServiceChoice,
    details: Details,
    photos: seq<Photo>)

  /** The optional `initialData` prop: each top-level section may be given. */
  datatype PartialRequestData = PartialRequestData(
    location: Option<Location>,
    service: Option<ServiceChoice>,
    details: Option<Details>,
    photos: Option<seq<Photo>>)

  /** The draft the wizard starts from when no initial data is given. */
  const BlankRequest := RequestData(
    Location("", Coordinates(0.0, 0.0), ""),
    ServiceChoice("", "", ""),
    Details("", Medium, ContactInfo("", "", "")),
    [])

  /** The initial draft: the blank draft with every section that
      `initialData` provides replaced wholesale (a shallow object spread). */
  function InitialRequest(init: PartialRequestData): (r: RequestData)
    ensures init.location.Some? ==> r.location == init.location.value
    ensures init.location.None? ==> r.location.address == "" && r.location.description == ""
    ensures init.location.None? ==> r.location == Location("", Coordinates(0.0, 0.0), "")
    ensures init.service.Some? ==> r.service == init.service.value
    ensures init.service.None? ==> r.service.typeId == "" && r.service.category == ""
    ensures init.service.None? ==> r.service == ServiceChoice("", "", "")
    ensures init.details.Some? ==> r.details == init.details.value
    ensures init.details.None? ==> r.details.description == "" && r.details.urgency == Medium
    ensures init.details.None? ==> r.details == Details("", Medium, ContactInfo("", "", ""))
    ensures init.photos.Some? ==> r.photos == init.photos.value
    ensures init.photos.None? ==> r.photos == []
  {
    RequestData(
      init.location.GetOr(BlankRequest.location),
      init.service.GetOr(BlankRequest.service),
      init.details.GetOr(BlankRequest.details),
      init.photos.GetOr(BlankRequest.photos))
  }

  // ---------------------------------------------------------------------
  // Steps, validity and progress

  datatype StepInfo = StepInfo(id: string, title: string)

  const Steps: seq<StepInfo> := [
    StepInfo("location", "Location"),
    StepInfo("service", "Service Type"),
    StepInfo("details", "Details"),
    StepInfo("review", "Review")
  ]

  const StepCount: nat := |Steps|
  const LastStep: nat := |Steps| - 1

  /** The wizard's state: the step on screen, the draft, and the location
      sections captured by "detect my location" clicks whose geolocation
      callback has not arrived yet (the browser may answer at any later
      time, or never). */
  datatype Wizard = Wizard(currentStep: int, data: RequestData, pending: seq<Location>)

  /** The step index names one of the four steps. */
  predicate Valid(w: Wizard) {
    0 <= w.currentStep < StepCount
  }

  function InitialWizard(init: PartialRequestData): (w: Wizard)
    ensures Valid(w) && w.currentStep == 0
  {
    Wizard(0, InitialRequest(init), [])
  }

  /** `isStepValid`: whether the draft lets the user leave step `stepIndex`.
      Each step checks one required field; review always passes; an index
      outside the four steps never does. */
  predicate IsStepValid(data: RequestData, stepIndex: int) {
    match stepIndex
    case 0 => |data.location.address| > 0
    case 1 => |data.service.typeId| > 0
    case 2 => |data.details.description| > 0
    case 3 => true
    case _ => false
  }

  /** Every step up to and including `k` accepts the draft exactly when the
      draft has each required field those steps check. */
  lemma StepValidityMeaning(data: RequestData)
    ensures IsStepValid(data, LastStep)
    ensures forall i :: (i < 0 || i > LastStep) ==> !IsStepValid(data, i)
    ensures (forall i :: 0 <= i <= LastStep ==> IsStepValid(data, i)) <==>
              (|data.location.address| > 0 && |data.service.typeId| > 0 && |data.details.description| > 0)
  {
    assert IsStepValid(data, 0) && IsStepValid(data, 1) && IsStepValid(data, 2) ==>
      forall i :: 0 <= i <= LastStep ==> IsStepValid(data, i);
  }

  /** A wizard opened without initial data cannot leave its first step. */
  lemma BlankWizardBlocked()
    ensures !IsStepValid(InitialWizard(PartialRequestData(None, None, None, None)).data, 0)
  {
  }

  /** The "Next"/"Submit" button is enabled. */
  predicate NextEnabled(w: Wizard) {
    IsStepValid(w.data, w.currentStep)
  }

  /** The "Previous" button is enabled. */
  predicate PreviousEnabled(w: Wizard) {
    w.currentStep != 0
  }

  /** The percentage shown by the progress bar, `(step + 1) / 4 * 100`, which
      is an integer for every step index. */
  function Progress(step: int): (p: int)
    ensures p * StepCount == (step + 1) * 100
  {
    (step + 1) * 25
  }

  /** On a valid step the progress is one of 25, 50, 75, 100, it grows with
      the step, and it reaches 100 exactly on the review step. */
  lemma ProgressFacts(i: int, j: int)
    requires 0 <= i < StepCount && 0 <= j < StepCount
    ensures Progress(i) in {25, 50, 75, 100}
    ensures i < j ==> Progress(i) < Progress(j)
    ensures Progress(i) == 100 <==> i == LastStep
  {
  }

  /** How a step's indicator is drawn. */
  datatype StepMark = Completed | Active | Upcoming

  function MarkOf(index: int, currentStep: int): (m: StepMark)
    ensures m == Completed <==> index < currentStep
    ensures m == Active <==> index == currentStep
  {
    if index < currentStep then Completed
    else if index == currentStep then Active
    else Upcoming
  }

  /** Exactly one of the four indicators is active in a valid wizard, and
      the steps before it are the completed ones. */
  lemma ExactlyOneActive(w: Wizard)
    requires Valid(w)
    ensures Seqs.Filter((i: int) => MarkOf(i, w.currentStep) == Active, [0, 1, 2, 3]) == [w.currentStep]
    ensures |Seqs.Filter((i: int) => MarkOf(i, w.currentStep) == Completed, [0, 1, 2, 3])| == w.currentStep
  {
    var s: seq<int> := [0, 1, 2, 3];
    assert s[1..] == [1, 2, 3];
    assert s[1..][1..] == [2, 3];
    assert s[1..][1..][1..] == [3];
    assert s[1..][1..][1..][1..] == [];
  }

  // ---------------------------------------------------------------------
  // Navigation

  /** The result of pressing a button: the next state and the draft handed
      to `onComplete`, if it was called. */
  datatype Outcome = Outcome(state: Wizard, completed: Option<RequestData>)

  /** `handleNext`: advance below the last step; on the last step, hand the
      draft to `onComplete` and stay. */
  function HandleNext(w: Wizard): (o: Outcome)
    ensures Valid(w) ==> Valid(o.state)
    ensures o.state.data == w.data
    ensures w.currentStep < LastStep ==> o.state.currentStep == w.currentStep + 1 && o.completed.None?
    ensures w.currentStep >= LastStep ==> o.state == w && o.completed == Some(w.data)
  {
    if w.currentStep < StepCount - 1 then Outcome(w.(currentStep := w.currentStep + 1), None)
    else Outcome(w, Some(w.data))
  }

  /** `handlePrevious`: go back one step, never below the first. */
  function HandlePrevious(w: Wizard): (r: Wizard)
    ensures Valid(w) ==> Valid(r)
    ensures r.data == w.data
    ensures w.currentStep > 0 ==> r.currentStep == w.currentStep - 1
    ensures w.currentStep <= 0 ==> r == w
  {
    if w.currentStep > 0 then w.(currentStep := w.currentStep - 1) else w
  }

  /** Where the "Previous" button is disabled, `handlePrevious` would not
      have moved anyway. */
  lemma PreviousDisabledIsNoOp(w: Wizard)
    requires Valid(w) && !PreviousEnabled(w)
    ensures HandlePrevious(w) == w
  {
  }

  // ---------------------------------------------------------------------
  // Editing the draft

  /** A service offered on the service step. */
  datatype ServiceOption = ServiceOption(id: string, name: string, category: string)

  const ServiceTypes: seq<ServiceOption> := [
    ServiceOption("pothole", "Pothole", "Streets"),
    ServiceOption("trash", "Missed Trash Pickup", "Sanitation"),
    ServiceOption("streetlight", "Street Light Out", "Public Safety"),
    ServiceOption("grass", "Tall Grass", "Code Compliance"),
    ServiceOption("vehicle", "Abandoned Vehicle", "Code Compliance")
  ]

  /** One change a step's form can make to the draft. */
  datatype Edit =
    | SetAddress(address: string)
    | SetLocationNote(note: string)
    | SelectService(option: ServiceOption)
    | SetServiceNote(note: string)
    | SetDescription(description: string)
    | SetUrgency(urgency: Urgency)
    | SetContactName(name: string)
    | SetContactEmail(email: string)
    | SetContactPhone(phone: string)
    | UploadPhotos(files: seq<Photo>)
    | RemovePhoto(index: int)

  /** The step whose form offers the edit. */
  function EditStep(e: Edit): (k: int)
    ensures 0 <= k < LastStep
  {
    match e
    case SetAddress(_) => 0
    case SetLocationNote(_) => 0
    case SelectService(_) => 1
    case SetServiceNote(_) => 1
    case _ => 2
  }

  /** The draft after one edit, as the form's `onChange` closures build it. */
  function ApplyEdit(d: RequestData, e: Edit): RequestData {
    match e
    case SetAddress(a) => d.(location := d.location.(address := a))
    case SetLocationNote(n) => d.(location := d.location.(description := n))
    case SelectService(opt) => d.(service := d.service.(typeId := opt.id, category := opt.category))
    case SetServiceNote(n) => d.(service := d.service.(description := n))
    case SetDescription(s) => d.(details := d.details.(description := s))
    case SetUrgency(u) => d.(details := d.details.(urgency := u))
    case SetContactName(n) => d.(details := d.details.(contactInfo := d.details.contactInfo.(name := n)))
    case SetContactEmail(m) => d.(details := d.details.(contactInfo := d.details.contactInfo.(email := m)))
    case SetContactPhone(p) => d.(details := d.details.(contactInfo := d.details.contactInfo.(phone := p)))
    case UploadPhotos(files) => d.(photos := d.photos + files)
    case RemovePhoto(i) => d.(photos := Seqs.RemoveAt(d.photos, i))
  }

  /** An edit changes only the section of the draft its step owns: the
      location step touches only `location`, the service step only
      `service`, the details step only `details` and `photos`. Hence the
      validity of every other step is unaffected. */
  lemma EditFrame(d: RequestData, e: Edit)
    ensures EditStep(e) != 0 ==> ApplyEdit(d, e).location == d.location
    ensures EditStep(e) != 1 ==> ApplyEdit(d, e).service == d.service
    ensures EditStep(e) != 2 ==> ApplyEdit(d, e).details == d.details && ApplyEdit(d, e).photos == d.photos
    ensures forall i :: i != EditStep(e) ==> IsStepValid(ApplyEdit(d, e), i) == IsStepValid(d, i)
  {
  }

  /** Choosing a service sets its id and category together and keeps the
      free-text note; choosing any catalogue service satisfies step 1. */
  lemma SelectServiceEffect(d: RequestData, opt: ServiceOption)
    ensures ApplyEdit(d, SelectService(opt)).service ==
              ServiceChoice(opt.id, opt.category, d.service.description)
    ensures opt in ServiceTypes ==> IsStepValid(ApplyEdit(d, SelectService(opt)), 1)
  {
  }

  /** A contact field edit changes that field and no other part of the
      contact details, urgency or description. */
  lemma ContactEditFrame(d: RequestData, s: string)
    ensures ApplyEdit(d, SetContactName(s)).details ==
              Details(d.details.description, d.details.urgency,
                      ContactInfo(s, d.details.contactInfo.email, d.details.contactInfo.phone))
    ensures ApplyEdit(d, SetContactEmail(s)).details ==
              Details(d.details.description, d.details.urgency,
                      ContactInfo(d.details.contactInfo.name, s, d.details.contactInfo.phone))
    ensures ApplyEdit(d, SetContactPhone(s)).details ==
              Details(d.details.description, d.details.urgency,
                      ContactInfo(d.details.contactInfo.name, d.details.contactInfo.email, s))
  {
  }

  /** Uploading puts the new files after the existing ones; removing
      position `i` deletes exactly that photo when it exists, keeping the
      others in order, and changes nothing otherwise. */
  lemma PhotoEdits(d: RequestData, files: seq<Photo>, i: int)
    ensures ApplyEdit(d, UploadPhotos(files)).photos[..|d.photos|] == d.photos
    ensures ApplyEdit(d, UploadPhotos(files)).photos[|d.photos|..] == files
    ensures 0 <= i < |d.photos| ==>
              |ApplyEdit(d, RemovePhoto(i)).photos| == |d.photos| - 1 &&
              ApplyEdit(d, RemovePhoto(i)).photos == d.photos[..i] + d.photos[i + 1..]
    ensures !(0 <= i < |d.photos|) ==> ApplyEdit(d, RemovePhoto(i)) == d
    ensures Seqs.IsSubseq(ApplyEdit(d, RemovePhoto(i)).photos, d.photos)
  {
    var r := Seqs.RemoveAt(d.photos, i);
    if 0 <= i < |d.photos| {
      RemovedIsSubseq(d.photos, i);
    } else {
      SubseqRefl(d.photos);
    }
  }

  lemma {:induction false} RemovedIsSubseq(s: seq<Photo>, i: int)
    requires 0 <= i < |s|
    ensures Seqs.IsSubseq(s[..i] + s[i + 1..], s)
    decreases i
  {
    if i == 0 {
      assert s[..0] + s[1..] == s[1..];
      SubseqRefl(s[1..]);
      Seqs.SubseqOfTail(s[1..], s);
    } else {
      RemovedIsSubseq(s[1..], i - 1);
      var t := s[..i] + s[i + 1..];
      assert t[0] == s[0];
      assert t[1..] == s[1..][..i - 1] + s[1..][i..];
    }
  }

  lemma {:induction false} SubseqRefl(s: seq<Photo>)
    ensures Seqs.IsSubseq(s, s)
    decreases |s|
  {
    if |s| > 0 {
      SubseqRefl(s[1..]);
    }
  }

  // ---------------------------------------------------------------------
  // The wizard as a whole

  /** What happens: the user presses one of the two buttons, uses the form
      of the step on screen or clicks "detect my location", or the browser
      answers the `request`-th outstanding location request. */
  datatype Event =
    | Next
    | Previous
    | Form(edit: Edit)
    | DetectLocation
    | LocationFound(request: int, lat: real, lng: real)

  /** `detectLocation`: the button is on the location step; the click
      captures that step's `data` prop, the location section as it is now. */
  function DetectClick(w: Wizard): (r: Wizard)
    ensures r.currentStep == w.currentStep && r.data == w.data
    ensures w.currentStep == 0 ==> r.pending == w.pending + [w.data.location]
    ensures w.currentStep != 0 ==> r.pending == w.pending
  {
    if w.currentStep == 0 then w.(pending := w.pending + [w.data.location]) else w
  }

  /** The geolocation success callback as written: it hands the parent the
      location section captured at click time with the coordinates filled
      in, and the parent stores that section whole, whatever step is on
      screen by then. */
  function LocationFoundAsWritten(w: Wizard, k: int, c: Coordinates): (r: Wizard)
    ensures r.currentStep == w.currentStep
    ensures r.data.service == w.data.service && r.data.details == w.data.details && r.data.photos == w.data.photos
    ensures 0 <= k < |w.pending| ==>
              r.data.location == Location(w.pending[k].address, c, w.pending[k].description) &&
              r.pending == Seqs.RemoveAt(w.pending, k)
    ensures !(0 <= k < |w.pending|) ==> r == w
  {
    if 0 <= k < |w.pending| then
      w.(data := w.data.(location := w.pending[k].(coordinates := c)), pending := Seqs.RemoveAt(w.pending, k))
    else w
  }

  /** The callback as intended: only the coordinates of the current location
      section change, so an address typed since the click survives. */
  function LocationFoundCorrected(w: Wizard, k: int, c: Coordinates): (r: Wizard)
    ensures r.currentStep == w.currentStep
    ensures 0 <= k < |w.pending| ==>
              r.data == w.data.(location := Location(w.data.location.address, c, w.data.location.description)) &&
              r.pending == Seqs.RemoveAt(w.pending, k)
    ensures !(0 <= k < |w.pending|) ==> r == w
    ensures forall i :: IsStepValid(r.data, i) == IsStepValid(w.data, i)
  {
    if 0 <= k < |w.pending| then
      w.(data := w.data.(location := w.data.location.(coordinates := c)), pending := Seqs.RemoveAt(w.pending, k))
    else w
  }

  /** One event, with the corrected location callback. A disabled button
      does nothing; only the form of the step on screen is rendered, so an
      edit belonging to another step does nothing. */
  function StepWizard(w: Wizard, ev: Event): (o: Outcome)
    ensures Valid(w) ==> Valid(o.state)
    ensures o.completed.Some? ==> o.completed == Some(w.data) && w.currentStep == LastStep
    ensures !ev.Next? && !ev.Previous? ==> o.state.currentStep == w.currentStep && o.completed.None?
  {
    match ev
    case Next => if NextEnabled(w) then HandleNext(w) else Outcome(w, None)
    case Previous => Outcome(if PreviousEnabled(w) then HandlePrevious(w) else w, None)
    case Form(e) =>
      if EditStep(e) == w.currentStep then Outcome(w.(data := ApplyEdit(w.data, e)), None)
      else Outcome(w, None)
    case DetectLocation => Outcome(DetectClick(w), None)
    case LocationFound(k, lat, lng) => Outcome(LocationFoundCorrected(w, k, Coordinates(lat, lng)), None)
  }

  /** One event as the code is written: the same, except that the location
      callback stores the section captured at click time. */
  function StepWizardAsWritten(w: Wizard, ev: Event): (o: Outcome)
    ensures !ev.LocationFound? ==> o == StepWizard(w, ev)
    ensures ev.LocationFound? ==>
              o == Outcome(LocationFoundAsWritten(w, ev.request, Coordinates(ev.lat, ev.lng)), None)
  {
    match ev
    case LocationFound(k, lat, lng) => Outcome(LocationFoundAsWritten(w, k, Coordinates(lat, lng)), None)
    case _ => StepWizard(w, ev)
  }

  /** The invariant the user interface keeps: the step index is in range
      and every step already passed accepts the current draft. */
  predicate Reachable(w: Wizard) {
    Valid(w) && forall i :: 0 <= i < w.currentStep ==> IsStepValid(w.data, i)
  }

  /** Every event keeps the invariant. Going back never invalidates a passed
      step, going forward requires the step on screen to accept the draft,
      and an edit touches only the step on screen. */
  lemma StepKeepsReachable(w: Wizard, ev: Event)
    requires Reachable(w)
    ensures Reachable(StepWizard(w, ev).state)
  {
    match ev
    case Next =>
    case Previous =>
    case Form(e) =>
      EditFrame(w.data, e);
    case DetectLocation =>
    case LocationFound(_, _, _) =>
  }

  /** Submission (with the corrected location callback) happens only from
      the review step of a reachable wizard,
      calls `onComplete` with the draft as it stands, and that draft has a
      non-empty address, service type and description. */
  lemma SubmittedDraftIsComplete(w: Wizard, ev: Event)
    requires Reachable(w) && StepWizard(w, ev).completed.Some?
    ensures StepWizard(w, ev).completed.value == w.data
    ensures |w.data.location.address| > 0
    ensures |w.data.service.typeId| > 0
    ensures |w.data.details.description| > 0
  {
    assert IsStepValid(w.data, 0) && IsStepValid(w.data, 1) && IsStepValid(w.data, 2);
  }

  /** Runs a sequence of events, collecting every draft handed to `onComplete`. */
  function Run(w: Wizard, evs: seq<Event>): (r: (Wizard, seq<RequestData>))
    decreases |evs|
  {
    if |evs| == 0 then (w, [])
    else
      var o := StepWizard(w, evs[0]);
      var (last, done) := Run(o.state, evs[1..]);
      (last, (if o.completed.Some? then [o.completed.value] else []) + done)
  }

  /** Whatever the user does from a reachable wizard, and whenever the
      browser answers a location request, the step stays in range and every
      submitted draft carries the three required fields. This holds with
      the corrected location callback; `StaleLocationSubmitted` shows the
      callback as written breaking it. */
  lemma {:induction false} RunFromReachable(w: Wizard, evs: seq<Event>)
    requires Reachable(w)
    ensures Reachable(Run(w, evs).0)
    ensures forall k :: 0 <= k < |Run(w, evs).1| ==>
              |Run(w, evs).1[k].location.address| > 0 &&
              |Run(w, evs).1[k].service.typeId| > 0 &&
              |Run(w, evs).1[k].details.description| > 0
    decreases |evs|
  {
    if |evs| > 0 {
      var o := StepWizard(w, evs[0]);
      StepKeepsReachable(w, evs[0]);
      RunFromReachable(o.state, evs[1..]);
      if o.completed.Some? {
        SubmittedDraftIsComplete(w, evs[0]);
      }
    }
  }

  lemma InitialIsReachable(init: PartialRequestData)
    ensures Reachable(InitialWizard(init))
  {
  }

  /** The worked example: a draft with address "123 Main St", service
      "pothole" and description "large hole" is submitted from the review
      step with those three values unchanged. */
  lemma SubmitExample()
    ensures
      var d := ApplyEdit(ApplyEdit(ApplyEdit(BlankRequest,
                 SetAddress("123 Main St")), SelectService(ServiceTypes[0])), SetDescription("large hole"));
      var o := StepWizard(Wizard(LastStep, d, []), Next);
      o.completed.Some? &&
      o.completed.value.location.address == "123 Main St" &&
      o.completed.value.service.typeId == "pothole" &&
      o.completed.value.details.description == "large hole"
  {
  }

  // ---------------------------------------------------------------------
  // A late location callback

  /** Running one event and then the rest. */
  lemma RunCons(w: Wizard, ev: Event, evs: seq<Event>)
    ensures Run(w, [ev] + evs).0 == Run(StepWizard(w, ev).state, evs).0
    ensures StepWizard(w, ev).completed.None? ==> Run(w, [ev] + evs).1 == Run(StepWizard(w, ev).state, evs).1
  {
    assert ([ev] + evs)[0] == ev && ([ev] + evs)[1..] == evs;
  }

  /** Clicking "detect my location" on an empty draft, typing `address` and
      moving on to the service step. */
  function TypedAfterClick(address: string): Wizard {
    Run(InitialWizard(PartialRequestData(None, None, None, None)),
        [DetectLocation, Form(SetAddress(address)), Next]).0
  }

  lemma TypedAfterClickState(address: string)
    requires |address| > 0
    ensures TypedAfterClick(address) ==
              Wizard(1, BlankRequest.(location := BlankRequest.location.(address := address)),
                     [BlankRequest.location])
  {
    var w0 := InitialWizard(PartialRequestData(None, None, None, None));
    var w1 := StepWizard(w0, DetectLocation).state;
    var w2 := StepWizard(w1, Form(SetAddress(address))).state;
    var w3 := StepWizard(w2, Next).state;
    RunCons(w0, DetectLocation, [Form(SetAddress(address)), Next]);
    RunCons(w1, Form(SetAddress(address)), [Next]);
    RunCons(w2, Next, []);
  }

  /** Choosing the first service, describing the issue and submitting,
      starting from the service step: the draft submitted is the draft
      with those two sections filled in. */
  lemma FinishFromServiceStep(w: Wizard)
    requires w.currentStep == 1
    ensures |Run(w, [Form(SelectService(ServiceTypes[0])), Next, Form(SetDescription("hole")), Next, Next]).1| == 1
    ensures Run(w, [Form(SelectService(ServiceTypes[0])), Next, Form(SetDescription("hole")), Next, Next]).1[0].location
              == w.data.location
  {
    var w1 := StepWizard(w, Form(SelectService(ServiceTypes[0]))).state;
    var w2 := StepWizard(w1, Next).state;
    var w3 := StepWizard(w2, Form(SetDescription("hole"))).state;
    var w4 := StepWizard(w3, Next).state;
    assert w4.currentStep == LastStep && w4.data.location == w.data.location;
    RunCons(w, Form(SelectService(ServiceTypes[0])), [Next, Form(SetDescription("hole")), Next, Next]);
    RunCons(w1, Next, [Form(SetDescription("hole")), Next, Next]);
    RunCons(w2, Form(SetDescription("hole")), [Next, Next]);
    RunCons(w3, Next, [Next]);
    assert [Next] == [Next] + [];
    assert Run(w4, [Next]).1 == [w4.data];
  }

  /** The run that shows the stale callback: the user clicks "detect my
      location" on an empty draft, types an address, moves on to the
      service step, and only then does the browser answer. As written, the
      answer restores the empty address captured at the click, and the
      wizard goes on to submit a draft without an address. */
  lemma StaleLocationSubmitted()
    ensures
      var w1 := TypedAfterClick("12 Main St");
      var w2 := StepWizardAsWritten(w1, LocationFound(0, 41.0, -85.0)).state;
      var r := Run(w2, [Form(SelectService(ServiceTypes[0])), Next, Form(SetDescription("hole")), Next, Next]);
      Reachable(w1) && w1.currentStep == 1 &&
      w2.currentStep == 1 && w2.data.location.address == "" && !Reachable(w2) &&
      |r.1| == 1 && r.1[0].location.address == ""
  {
    TypedAfterClickState("12 Main St");
    var w2 := StepWizardAsWritten(TypedAfterClick("12 Main St"), LocationFound(0, 41.0, -85.0)).state;
    assert !IsStepValid(w2.data, 0);
    FinishFromServiceStep(w2);
  }

  /** The same run with the corrected callback: the typed address survives,
      the reported coordinates are added, and that is what is submitted. */
  lemma FreshLocationSubmitted()
    ensures
      var w1 := TypedAfterClick("12 Main St");
      var w2 := StepWizard(w1, LocationFound(0, 41.0, -85.0)).state;
      var r := Run(w2, [Form(SelectService(ServiceTypes[0])), Next, Form(SetDescription("hole")), Next, Next]);
      Reachable(w2) &&
      |r.1| == 1 && r.1[0].location.address == "12 Main St" &&
      r.1[0].location.coordinates == Coordinates(41.0, -85.0)
  {
    TypedAfterClickState("12 Main St");
    var w2 := StepWizard(TypedAfterClick("12 Main St"), LocationFound(0, 41.0, -85.0)).state;
    FinishFromServiceStep(w2);
  }
}

=== FILE: request_tracker.dfy ===
/** The request tracker: partitions a list of tracked requests into the
    "all", "active" and "resolved" tabs, shows a progress percentage per
    status, summary counts, a coarse "time ago" label, and the latest
    status update of each request. */
module RequestTracker {
  import opened Wrappers
  import Seqs
  import Text

  datatype Status = Submitted | InProgress | Resolved | Closed | Reopened

  datatype Priority = Low | Medium | High

  /** One entry of a request's history. `timestamp` is in milliseconds. */
  datatype StatusUpdate = StatusUpdate(
    id: string, status: string, message: string, timestamp: int,
    author: string, authorRole: string)

  /** A tracked request. Dates are in milliseconds since the epoch. */
  datatype TrackedRequest = TrackedRequest(
    id: string,
    status: Status,
    title: string,
    description: string,
    location: string,
    category: string,
    priority: Priority,
    submittedDate: int,
    estimatedResolution: int,
    assignedTo: Option<string>,
    department: string,
    photos: seq<string>,
    updates: seq<StatusUpdate>,
    trackingNumber: string)

  /** The three tabs. */
  datatype FilterTab = All | ActiveTab | ResolvedTab

  const ActiveStatuses: seq<Status> := [Submitted, InProgress, Reopened]
  const ResolvedStatuses: seq<Status> := [Resolved, Closed]

  predicate IsActive(r: TrackedRequest) {
    r.status in ActiveStatuses
  }

  predicate IsResolved(r: TrackedRequest) {
    r.status in ResolvedStatuses
  }

  /** The statuses split into the two groups: no status is in both and every
      status is in one of them. */
  lemma StatusPartition(s: Status)
    ensures s in ActiveStatuses <==> s !in ResolvedStatuses
  {
  }

  /** Whether a request is listed under a tab. */
  predicate Shown(tab: FilterTab, r: TrackedRequest) {
    match tab
    case ActiveTab => IsActive(r)
    case ResolvedTab => IsResolved(r)
    case All => true
  }

  /** `filteredRequests`: the requests listed under `tab`, in input order. */
  function FilteredRequests(requests: seq<TrackedRequest>, tab: FilterTab): (r: seq<TrackedRequest>)
    ensures |r| <= |requests|
    ensures Seqs.IsSubseq(r, requests)
    ensures forall i :: 0 <= i < |r| ==> Shown(tab, r[i])
    ensures forall i :: 0 <= i < |requests| && Shown(tab, requests[i]) ==> requests[i] in r
    ensures forall x {:trigger multiset(r)[x]} :: multiset(r)[x] == if Shown(tab, x) then multiset(requests)[x] else 0
  {
    Seqs.FilterIsSubseq((x: TrackedRequest) => Shown(tab, x), requests);
    Seqs.Filter((x: TrackedRequest) => Shown(tab, x), requests)
  }

  /** The "all" tab lists the input unchanged. */
  lemma AllTabIsIdentity(requests: seq<TrackedRequest>)
    ensures FilteredRequests(requests, All) == requests
  {
    Seqs.FilterKeepsAll((x: TrackedRequest) => Shown(All, x), requests);
  }

  /** The active and resolved tabs are disjoint and together list every
      request: their lengths add up to the input length. */
  lemma TabsPartition(requests: seq<TrackedRequest>)
    ensures forall r :: r in FilteredRequests(requests, ActiveTab) ==> r !in FilteredRequests(requests, ResolvedTab)
    ensures |FilteredRequests(requests, ActiveTab)| + |FilteredRequests(requests, ResolvedTab)| == |requests|
  {
    var a := FilteredRequests(requests, ActiveTab);
    var b := FilteredRequests(requests, ResolvedTab);
    assert forall x :: x in b ==> IsResolved(x);
    forall r | r in a
      ensures r !in b
    {
      StatusPartition(r.status);
    }
    forall i | 0 <= i < |requests|
      ensures Shown(ResolvedTab, requests[i]) == !Shown(ActiveTab, requests[i])
    {
      StatusPartition(requests[i].status);
    }
    Seqs.FilterComplementLength((x: TrackedRequest) => Shown(ActiveTab, x),
                                (x: TrackedRequest) => Shown(ResolvedTab, x), requests);
  }

  /** `calculateProgress`: the completion percentage shown for a status. */
  function CalculateProgress(s: Status): (p: int)
    ensures 0 <= p <= 100
    ensures p == 100 <==> s in ResolvedStatuses
    ensures s in ActiveStatuses ==> 25 <= p <= 75
  {
    match s
    case Submitted => 25
    case InProgress => 75
    case Resolved => 100
    case Closed => 100
    case Reopened => 50
  }

  /** The fixed table: submitted 25, reopened 50, in progress 75, resolved
      and closed 100; a reopened request shows less progress than one in
      progress, and more than a new one. */
  lemma ProgressTable()
    ensures CalculateProgress(Submitted) < CalculateProgress(Reopened) < CalculateProgress(InProgress)
    ensures CalculateProgress(Submitted) == 25 && CalculateProgress(Reopened) == 50
    ensures CalculateProgress(InProgress) == 75
    ensures CalculateProgress(Resolved) == 100 && CalculateProgress(Closed) == 100
  {
  }

  /** The summary cards (the fixed "2.3 days" average is text, not computed). */
  datatype Stats = Stats(total: nat, active: nat, resolved: nat)

  function ComputeStats(requests: seq<TrackedRequest>): (st: Stats)
    ensures st.total == |requests|
    ensures st.active == |FilteredRequests(requests, ActiveTab)|
    ensures st.resolved == |FilteredRequests(requests, ResolvedTab)|
    ensures st.active + st.resolved == st.total
  {
    TabsPartition(requests);
    Seqs.FilterCongruent((r: TrackedRequest) => r.status in ActiveStatuses,
                         (x: TrackedRequest) => Shown(ActiveTab, x), requests);
    Seqs.FilterCongruent((r: TrackedRequest) => r.status in ResolvedStatuses,
                         (x: TrackedRequest) => Shown(ResolvedTab, x), requests);
    Stats(|requests|,
          |Seqs.Filter((r: TrackedRequest) => r.status in ActiveStatuses, requests)|,
          |Seqs.Filter((r: TrackedRequest) => r.status in ResolvedStatuses, requests)|)
  }

  // ---------------------------------------------------------------------
  // "Time ago"

  const MillisPerHour: int := 1000 * 60 * 60
  const HoursPerDay: int := 24

  /** The four outcomes of `getTimeAgo`. */
  datatype TimeAgo = JustNow | HoursAgo(hours: int) | DaysAgo(days: int) | FormattedDate(date: int)

  /** `getTimeAgo(dateString)` evaluated at time `now`: the whole hours
      elapsed (rounded down, as `Math.floor`; Dafny's division by a
      positive divisor rounds down too) select the bucket. */
  function GetTimeAgo(now: int, date: int): (t: TimeAgo)
    ensures t == JustNow <==> now - date < MillisPerHour
    ensures t.HoursAgo? ==>
              (1 <= t.hours < 24 && t.hours * MillisPerHour <= now - date < (t.hours + 1) * MillisPerHour)
    ensures t.DaysAgo? ==>
              (1 <= t.days < 7 && t.days * 24 * MillisPerHour <= now - date < (t.days + 1) * 24 * MillisPerHour)
    ensures t.FormattedDate? <==> now - date >= 7 * 24 * MillisPerHour
    ensures t.FormattedDate? ==> t.date == date
  {
    var diffInHours := (now - date) / MillisPerHour;
    if diffInHours < 1 then JustNow
    else if diffInHours < 24 then HoursAgo(diffInHours)
    else
      var diffInDays := diffInHours / HoursPerDay;
      if diffInDays < 7 then DaysAgo(diffInDays)
      else FormattedDate(date)
  }

  /** The label shown; the formatted date is a locale rendering outside the
      model, so that bucket yields None. */
  function TimeAgoLabel(t: TimeAgo): (s: Option<string>)
    ensures s.None? <==> t.FormattedDate?
    ensures t == JustNow ==> s == Some("Just now")
    ensures t.HoursAgo? ==> s == Some(Text.IntString(t.hours) + " hours ago")
    ensures t.DaysAgo? ==> s == Some(Text.IntString(t.days) + " days ago")
  {
    match t
    case JustNow => Some("Just now")
    case HoursAgo(h) => Some(Text.IntString(h) + " hours ago")
    case DaysAgo(d) => Some(Text.IntString(d) + " days ago")
    case FormattedDate(_) => None
  }

  /** The label read off the elapsed time: "Just now" under an hour, the
      whole hours under a day, the whole days under a week, and no text
      from a week on. */
  lemma LabelOfElapsed(now: int, date: int)
    ensures now - date < MillisPerHour ==> TimeAgoLabel(GetTimeAgo(now, date)) == Some("Just now")
    ensures MillisPerHour <= now - date < 24 * MillisPerHour ==>
              TimeAgoLabel(GetTimeAgo(now, date)) == Some(Text.IntString((now - date) / MillisPerHour) + " hours ago")
    ensures 24 * MillisPerHour <= now - date < 7 * 24 * MillisPerHour ==>
              TimeAgoLabel(GetTimeAgo(now, date)) == Some(Text.IntString((now - date) / (24 * MillisPerHour)) + " days ago")
    ensures now - date >= 7 * 24 * MillisPerHour ==> TimeAgoLabel(GetTimeAgo(now, date)).None?
  {
  }

  /** A timestamp in the future counts as "Just now". */
  lemma FutureIsJustNow(now: int, date: int)
    requires date >= now
    ensures GetTimeAgo(now, date) == JustNow
  {
  }

  /** The buckets follow elapsed time: more time never gives a finer bucket. */
  function Rank(t: TimeAgo): nat {
    match t
    case JustNow => 0
    case HoursAgo(_) => 1
    case DaysAgo(_) => 2
    case FormattedDate(_) => 3
  }

  lemma TimeAgoMonotone(now: int, date1: int, date2: int)
    requires date2 <= date1
    ensures Rank(GetTimeAgo(now, date1)) <= Rank(GetTimeAgo(now, date2))
  {
    var a := GetTimeAgo(now, date1);
    var b := GetTimeAgo(now, date2);
    if b.HoursAgo? {
      assert now - date2 < 24 * MillisPerHour;
    }
    if b.DaysAgo? {
      assert now - date2 < 7 * 24 * MillisPerHour;
    }
  }

  // ---------------------------------------------------------------------
  // Latest update

  /** The update shown in a request's card: the last one, and none when the
      history is empty. */
  function LatestUpdate(updates: seq<StatusUpdate>): (u: Option<StatusUpdate>)
    ensures u.Some? <==> |updates| > 0
    ensures u.Some? ==> u.value == updates[|updates| - 1]
  {
    if |updates| > 0 then Some(updates[|updates| - 1]) else None
  }

  /** Appending an update makes it the latest one. */
  lemma LatestAfterAppend(updates: seq<StatusUpdate>, u: StatusUpdate)
    ensures LatestUpdate(updates + [u]) == Some(u)
  {
  }
}

=== FILE: seqs.dfy ===
/** Order-preserving operations on sequences shared by the components:
    the array filter every list view uses, deletion by position, lookup by
    value, and the subsequence relation that states "kept in order". */
module Seqs {

  /** `a` can be obtained from `b` by deleting elements, keeping the rest in
      their original order. */
  predicate IsSubseq<T(==)>(a: seq<T>, b: seq<T>)
    decreases |b|
  {
    if |a| == 0 then true
    else if |b| == 0 then false
    else (a[0] == b[0] && IsSubseq(a[1..], b[1..])) || IsSubseq(a, b[1..])
  }

  /** The elements of `s` that satisfy `p`, in their original order
      (the model of `Array.prototype.filter`). */
  function Filter<T(==,!new)>(p: T -> bool, s: seq<T>): (r: seq<T>)
    ensures |r| <= |s|
    ensures forall i :: 0 <= i < |r| ==> r[i] in s && p(r[i])
    ensures forall i :: 0 <= i < |s| && p(s[i]) ==> s[i] in r
    ensures forall x {:trigger multiset(r)[x]} :: multiset(r)[x] == if p(x) then multiset(s)[x] else 0
    decreases |s|
  {
    if |s| == 0 then []
    else
      var rest := Filter(p, s[1..]);
      assert s == [s[0]] + s[1..];
      assert multiset(s) == multiset([s[0]]) + multiset(s[1..]);
      if p(s[0]) then
        assert multiset([s[0]] + rest) == multiset([s[0]]) + multiset(rest);
        [s[0]] + rest
      else
        rest
  }

  /** `s` without the element at position `i`; `s` itself when `i` is not a
      valid position (the model of `s.filter((_, j) => j !== i)`). */
  function RemoveAt<T>(s: seq<T>, i: int): (r: seq<T>)
    ensures 0 <= i < |s| ==> r == s[..i] + s[i + 1..]
    ensures !(0 <= i < |s|) ==> r == s
    decreases |s|
  {
    if |s| == 0 then []
    else
      var rest := RemoveAt(s[1..], i - 1);
      if i == 0 then rest
      else
        assert 0 < i < |s| ==> [s[0]] + s[1..][..i - 1] == s[..i];
        assert 0 < i < |s| ==> s[1..][i..] == s[i + 1..];
        [s[0]] + rest
  }

  /** The position of the first occurrence of `x` in `s`, or -1 when there is
      none (the model of `Array.prototype.indexOf`). */
  function IndexOf<T(==)>(s: seq<T>, x: T): (r: int)
    ensures -1 <= r < |s|
    ensures r == -1 <==> x !in s
    ensures 0 <= r ==> s[r] == x && forall j :: 0 <= j < r ==> s[j] != x
    decreases |s|
  {
    if |s| == 0 then -1
    else if s[0] == x then 0
    else
      var k := IndexOf(s[1..], x);
      if k == -1 then -1 else k + 1
  }

  /** Filtering deletes elements and keeps the survivors in order. */
  lemma {:induction false} FilterIsSubseq<T(!new)>(p: T -> bool, s: seq<T>)
    ensures IsSubseq(Filter(p, s), s)
    decreases |s|
  {
    if |s| > 0 {
      FilterIsSubseq(p, s[1..]);
      var rest := Filter(p, s[1..]);
      if p(s[0]) {
        assert Filter(p, s) == [s[0]] + rest;
        assert ([s[0]] + rest)[1..] == rest;
      } else {
        assert Filter(p, s) == rest;
        SubseqOfTail(rest, s);
      }
    }
  }

  /** A subsequence of the tail is a subsequence of the whole. */
  lemma SubseqOfTail<T>(a: seq<T>, b: seq<T>)
    requires |b| > 0 && IsSubseq(a, b[1..])
    ensures IsSubseq(a, b)
  {
  }

  /** A subsequence is never longer than the sequence it is taken from. */
  lemma {:induction false} SubseqLength<T>(a: seq<T>, b: seq<T>)
    requires IsSubseq(a, b)
    ensures |a| <= |b|
    decreases |b|
  {
    if |a| > 0 {
      if a[0] == b[0] && IsSubseq(a[1..], b[1..]) {
        SubseqLength(a[1..], b[1..]);
      } else {
        SubseqLength(a, b[1..]);
      }
    }
  }

  /** Every prefix of a subsequence of `b` is itself a subsequence of `b`. */
  lemma {:induction false} SubseqPrefix<T>(a: seq<T>, b: seq<T>, k: nat)
    requires IsSubseq(a, b) && k <= |a|
    ensures IsSubseq(a[..k], b)
    decreases |b|
  {
    if k > 0 {
      if a[0] == b[0] && IsSubseq(a[1..], b[1..]) {
        SubseqPrefix(a[1..], b[1..], k - 1);
        assert a[..k][1..] == a[1..][..k - 1];
      } else {
        SubseqPrefix(a, b[1..], k);
      }
    }
  }

  /** Filtering distributes over concatenation. */
  lemma {:induction false} FilterAppend<T(!new)>(p: T -> bool, a: seq<T>, b: seq<T>)
    ensures Filter(p, a + b) == Filter(p, a) + Filter(p, b)
    decreases |a|
  {
    if |a| > 0 {
      assert (a + b)[1..] == a[1..] + b;
      FilterAppend(p, a[1..], b);
    } else {
      assert a + b == b;
    }
  }

  /** When every element satisfies `p`, filtering keeps the sequence whole. */
  lemma {:induction false} FilterKeepsAll<T(!new)>(p: T -> bool, s: seq<T>)
    requires forall i :: 0 <= i < |s| ==> p(s[i])
    ensures Filter(p, s) == s
    decreases |s|
  {
    if |s| > 0 {
      FilterKeepsAll(p, s[1..]);
      assert [s[0]] + s[1..] == s;
    }
  }

  /** When no element satisfies `p`, filtering leaves nothing. */
  lemma {:induction false} FilterKeepsNone<T(!new)>(p: T -> bool, s: seq<T>)
    requires forall i :: 0 <= i < |s| ==> !p(s[i])
    ensures Filter(p, s) == []
    decreases |s|
  {
    if |s| > 0 {
      FilterKeepsNone(p, s[1..]);
    }
  }

  /** Filtering twice by the same predicate is filtering once. */
  lemma FilterIdempotent<T(!new)>(p: T -> bool, s: seq<T>)
    ensures Filter(p, Filter(p, s)) == Filter(p, s)
  {
    var r := Filter(p, s);
    FilterKeepsAll(p, r);
  }

  /** Two predicates that disagree on every element split a sequence: the
      elements each one keeps add up to the whole. */
  lemma {:induction false} FilterComplementLength<T(!new)>(p: T -> bool, q: T -> bool, s: seq<T>)
    requires forall i :: 0 <= i < |s| ==> q(s[i]) == !p(s[i])
    ensures |Filter(p, s)| + |Filter(q, s)| == |s|
    decreases |s|
  {
    if |s| > 0 {
      FilterComplementLength(p, q, s[1..]);
    }
  }

  /** Filtering depends only on what the predicate says about the elements
      present. */
  lemma {:induction false} FilterCongruent<T(!new)>(p: T -> bool, q: T -> bool, s: seq<T>)
    requires forall i :: 0 <= i < |s| ==> p(s[i]) == q(s[i])
    ensures Filter(p, s) == Filter(q, s)
    decreases |s|
  {
    if |s| > 0 {
      FilterCongruent(p, q, s[1..]);
    }
  }
}

=== FILE: service_categories.dfy ===
/** The service category browser: clicking a category expands it (or
    collapses it when it is already expanded) and notifies the page,
    clicking a service forwards it to the page, and each category shows a
    priority badge. */
module ServiceCategories {
  import opened Wrappers
  import Seqs

  datatype Priority = High | Medium | Low

  datatype Service = Service(id: string, name: string, avgResponseTime: string,
                             isPopular: bool, isTrending: bool)

  datatype Category = Category(id: string, name: string, priority: Priority,
                               services: seq<Service>)

  /** The catalogue, in display order. */
  const ServiceCatalogue: seq<Category> := [
    Category("sanitation", "Trash & Recycling", High, [
      Service("missed-pickup", "Missed Trash Pickup", "Same day", true, false),
      Service("bulk-pickup", "Bulk Item Collection", "3-5 days", false, true),
      Service("cart-maintenance", "Cart Maintenance", "2-3 days", false, false)]),
    Category("streets", "Streets & Infrastructure", High, [
      Service("pothole", "Pothole Repair", "2-3 days", true, false),
      Service("street-signs", "Street Signs", "1-2 days", false, false),
      Service("traffic-signals", "Traffic Signals", "Same day", false, false)]),
    Category("code-compliance", "Code Compliance", Medium, [
      Service("tall-grass", "Tall Grass or Weeds", "3-5 days", true, false),
      Service("abandoned-vehicles", "Abandoned Vehicles", "5-7 days", false, false),
      Service("property-maintenance", "Property Maintenance", "3-5 days", false, false)]),
    Category("public-safety", "Public Safety", High, [
      Service("street-lights", "Street Light Out", "1-2 days", true, false),
      Service("sidewalk-hazards", "Sidewalk Hazards", "2-3 days", false, false),
      Service("emergency-reporting", "Emergency Reporting", "Immediate", false, false)])
  ]

  /** The two renderings: a grid of category cards (the default) or a list
      whose expanded category shows its services. */
  datatype Layout = Grid | List

  const DefaultLayout := Grid

  /** The browser's state: the id of the expanded category, if any. */
  datatype Browser = Browser(selectedCategory: Option<string>)

  const InitialBrowser := Browser(None)

  /** The result of a click: the new state and what the page was told. */
  datatype CategoryClicked = CategoryClicked(browser: Browser, notified: Option<Category>)

  /** `handleCategoryClick(c)`: collapse `c` if it is the expanded category,
      otherwise expand it (collapsing any other); either way the page's
      `onCategorySelect`, when given, receives `c`. */
  function CategoryClick(b: Browser, c: Category, hasCategoryHandler: bool): (r: CategoryClicked)
    ensures b.selectedCategory == Some(c.id) ==> r.browser.selectedCategory == None
    ensures b.selectedCategory != Some(c.id) ==> r.browser.selectedCategory == Some(c.id)
    ensures r.notified == (if hasCategoryHandler then Some(c) else None)
  {
    var next := if b.selectedCategory == Some(c.id) then None else Some(c.id);
    CategoryClicked(Browser(next), if hasCategoryHandler then Some(c) else None)
  }

  /** A category's service list is shown exactly when the list layout is in
      use and the category is the expanded one; the grid never shows one. */
  predicate ServicesVisible(layout: Layout, b: Browser, c: Category) {
    layout == List && b.selectedCategory == Some(c.id)
  }

  /** The categories of `cats` whose services are shown. */
  function ExpandedIn(layout: Layout, b: Browser, cats: seq<Category>): (e: seq<Category>)
    ensures forall i :: 0 <= i < |e| ==> e[i] in cats && Some(e[i].id) == b.selectedCategory
    ensures forall i :: 0 <= i < |cats| && ServicesVisible(layout, b, cats[i]) ==> cats[i] in e
    ensures layout == Grid ==> e == []
  {
    var e := Seqs.Filter((c: Category) => ServicesVisible(layout, b, c), cats);
    assert |e| > 0 ==> ServicesVisible(layout, b, e[0]);
    e
  }

  /** The categories of the catalogue whose services are shown. */
  function Expanded(layout: Layout, b: Browser): seq<Category> {
    ExpandedIn(layout, b, ServiceCatalogue)
  }

  predicate DistinctIds(cats: seq<Category>) {
    forall i, j :: 0 <= i < j < |cats| ==> cats[i].id != cats[j].id
  }

  lemma CatalogueIdsDistinct()
    ensures DistinctIds(ServiceCatalogue)
  {
  }

  /** In a list of categories with distinct ids, at most one is expanded,
      and a listed category whose id is the selected one is. */
  lemma {:induction false} AtMostOneExpandedIn(layout: Layout, b: Browser, cats: seq<Category>)
    requires DistinctIds(cats)
    ensures |ExpandedIn(layout, b, cats)| <= 1
    ensures forall c :: c in cats && ServicesVisible(layout, b, c) ==> ExpandedIn(layout, b, cats) == [c]
    decreases |cats|
  {
    if |cats| > 0 {
      var rest := cats[1..];
      assert DistinctIds(rest);
      AtMostOneExpandedIn(layout, b, rest);
      if ServicesVisible(layout, b, cats[0]) {
        assert forall i :: 0 <= i < |rest| ==> !ServicesVisible(layout, b, rest[i]) by {
          assert forall i :: 0 <= i < |rest| ==> rest[i].id != cats[0].id;
        }
        Seqs.FilterKeepsNone((c: Category) => ServicesVisible(layout, b, c), rest);
        assert ExpandedIn(layout, b, cats) == [cats[0]];
      }
    }
  }

  /** Catalogue ids are distinct, so at most one category is expanded. */
  lemma AtMostOneExpanded(layout: Layout, b: Browser)
    ensures |Expanded(layout, b)| <= 1
  {
    CatalogueIdsDistinct();
    AtMostOneExpandedIn(layout, b, ServiceCatalogue);
  }

  /** After a click on a catalogue category in the list layout, exactly
      that category's services are shown, or none are; in the grid layout a
      click shows no services at all. */
  lemma ClickShowsOnlyClicked(layout: Layout, b: Browser, c: Category, h: bool)
    requires c in ServiceCatalogue
    ensures var e := Expanded(layout, CategoryClick(b, c, h).browser);
            e == [c] || e == []
    ensures layout == Grid ==> Expanded(layout, CategoryClick(b, c, h).browser) == []
  {
    var b' := CategoryClick(b, c, h).browser;
    CatalogueIdsDistinct();
    AtMostOneExpandedIn(layout, b', ServiceCatalogue);
  }

  /** Two clicks on the same category restore the state whenever the
      category was expanded or nothing was; when another category was
      expanded, they leave nothing expanded. */
  lemma DoubleClick(b: Browser, c: Category, h: bool)
    ensures b.selectedCategory == None || b.selectedCategory == Some(c.id) ==>
              CategoryClick(CategoryClick(b, c, h).browser, c, h).browser == b
    ensures b.selectedCategory.Some? && b.selectedCategory != Some(c.id) ==>
              CategoryClick(CategoryClick(b, c, h).browser, c, h).browser == InitialBrowser
  {
  }

  /** `handleServiceClick(s)`: the page's `onServiceSelect`, when given,
      receives the service unchanged; the browser's state is untouched. A
      service can be clicked only where it is on screen: in the list
      layout, under the expanded category. */
  function ServiceClick(layout: Layout, b: Browser, c: Category, s: Service, hasServiceHandler: bool)
    : (forwarded: Option<Service>)
    ensures forwarded.Some? <==> hasServiceHandler && ServicesVisible(layout, b, c) && s in c.services
    ensures forwarded.Some? ==> forwarded.value == s
    ensures layout == Grid ==> forwarded.None?
  {
    if ServicesVisible(layout, b, c) && s in c.services && hasServiceHandler then Some(s) else None
  }

  /** `getPriorityColor`: the badge classes for a priority name; any name
      other than the three priorities gets the gray default. */
  function PriorityColor(priority: string): (cls: string)
    ensures priority !in {"high", "medium", "low"} ==> cls == DefaultColor
  {
    if priority == "high" then "bg-red-100 text-red-800"
    else if priority == "medium" then "bg-amber-100 text-amber-800"
    else if priority == "low" then "bg-green-100 text-green-800"
    else DefaultColor
  }

  const DefaultColor := "bg-gray-100 text-gray-800"

  function PriorityName(p: Priority): string {
    match p
    case High => "high"
    case Medium => "medium"
    case Low => "low"
  }

  /** Each priority gets its own badge colour, none of them the default. */
  lemma PriorityColorsDistinct(p: Priority, q: Priority)
    ensures PriorityColor(PriorityName(p)) != DefaultColor
    ensures p != q ==> PriorityColor(PriorityName(p)) != PriorityColor(PriorityName(q))
  {
  }
}

=== FILE: smart_search.dfy ===
/** The smart search box: a case-insensitive substring filter over a fixed
    catalogue of suggestions (at most eight shown), a keyboard cursor over
    the shown suggestions, choosing a suggestion, and submitting the
    trimmed query. Callbacks to the page are returned as effects. */
module SmartSearch {
  import opened Wrappers
  import Seqs
  import Text

  datatype SuggestionKind = Service | LocationKind | Recent | Trending

  datatype Suggestion = Suggestion(
    id: string, text: string, kind: SuggestionKind,
    category: Option<string>, description: Option<string>)

  /** The hard-coded catalogue, in display order. */
  const Catalogue: seq<Suggestion> := [
    Suggestion("1", "Report a pothole", Service, Some("Streets"), Some("Street maintenance")),
    Suggestion("2", "Missed trash pickup", Service, Some("Sanitation"), Some("Waste collection")),
    Suggestion("3", "Street light out", Service, Some("Public Safety"), Some("Street lighting")),
    Suggestion("4", "Tall grass complaint", Service, Some("Code Compliance"), Some("Property maintenance")),
    Suggestion("5", "Abandoned vehicle", Service, Some("Code Compliance"), Some("Vehicle removal")),
    Suggestion("6", "Bulk trash pickup", Trending, Some("Sanitation"), Some("Large item collection")),
    Suggestion("7", "Sidewalk repair", Trending, Some("Streets"), Some("Pedestrian safety")),
    Suggestion("8", "Pothole on Main Street", Recent, Some("Streets"), Some("Reported 2 days ago")),
    Suggestion("9", "Trash pickup on Oak Ave", Recent, Some("Sanitation"), Some("Reported 1 week ago"))
  ]

  /** At most this many suggestions are shown. */
  const MaxSuggestions: nat := 8

  /** A suggestion matches when its text or its category contains the query,
      ignoring ASCII letter case. */
  predicate Matches(s: Suggestion, query: string) {
    || Text.Contains(Text.Lower(s.text), Text.Lower(query))
    || (s.category.Some? && Text.Contains(Text.Lower(s.category.value), Text.Lower(query)))
  }

  /** Every entry of `cat` that matches, in order. */
  function MatchesIn(cat: seq<Suggestion>, query: string): (r: seq<Suggestion>)
    ensures Seqs.IsSubseq(r, cat)
    ensures forall i :: 0 <= i < |r| ==> Matches(r[i], query)
    ensures forall i :: 0 <= i < |cat| && Matches(cat[i], query) ==> cat[i] in r
    ensures forall x {:trigger multiset(r)[x]} :: multiset(r)[x] == if Matches(x, query) then multiset(cat)[x] else 0
  {
    Seqs.FilterIsSubseq((s: Suggestion) => Matches(s, query), cat);
    Seqs.Filter((s: Suggestion) => Matches(s, query), cat)
  }

  /** The suggestion list `handleInputChange` computes from the entries of
      `cat`: empty for an empty query, otherwise the first eight matches. */
  function SuggestionsIn(cat: seq<Suggestion>, query: string): (r: seq<Suggestion>)
    ensures |r| <= MaxSuggestions
    ensures Seqs.IsSubseq(r, cat)
    ensures forall i :: 0 <= i < |r| ==> Matches(r[i], query)
    ensures |query| == 0 ==> r == []
    ensures |query| > 0 ==> |r| == (if |MatchesIn(cat, query)| < MaxSuggestions then |MatchesIn(cat, query)| else MaxSuggestions)
    ensures |query| > 0 ==> r == MatchesIn(cat, query)[..|r|]
  {
    if |query| > 0 then
      var all := MatchesIn(cat, query);
      var n := if |all| < MaxSuggestions then |all| else MaxSuggestions;
      Seqs.SubseqPrefix(all, cat, n);
      all[..n]
    else []
  }

  /** Every catalogue entry that matches, in catalogue order. */
  function AllMatches(query: string): (r: seq<Suggestion>)
    ensures Seqs.IsSubseq(r, Catalogue)
    ensures forall i :: 0 <= i < |r| ==> Matches(r[i], query)
    ensures forall i :: 0 <= i < |Catalogue| && Matches(Catalogue[i], query) ==> Catalogue[i] in r
    ensures forall x {:trigger multiset(r)[x]} :: multiset(r)[x] == if Matches(x, query) then multiset(Catalogue)[x] else 0
  {
    MatchesIn(Catalogue, query)
  }

  /** The suggestions for a query typed into the box: empty for an empty
      query, otherwise the first eight catalogue entries that match. */
  function SuggestionsFor(query: string): (r: seq<Suggestion>)
    ensures |r| <= MaxSuggestions
    ensures Seqs.IsSubseq(r, Catalogue)
    ensures forall i :: 0 <= i < |r| ==> Matches(r[i], query)
    ensures |query| == 0 ==> r == []
    ensures |query| > 0 ==> |r| == (if |AllMatches(query)| < MaxSuggestions then |AllMatches(query)| else MaxSuggestions)
    ensures |query| > 0 ==> r == AllMatches(query)[..|r|]
  {
    SuggestionsIn(Catalogue, query)
  }

  /** When no more than eight entries match, every match is suggested. */
  lemma FewMatchesAllShown(query: string, i: int)
    requires |query| > 0 && |AllMatches(query)| <= MaxSuggestions
    requires 0 <= i < |Catalogue| && Matches(Catalogue[i], query)
    ensures Catalogue[i] in SuggestionsFor(query)
  {
  }

  /** A query that matches nothing gives no suggestions. */
  lemma NoMatchNoSuggestions(query: string)
    requires forall i :: 0 <= i < |Catalogue| ==> !Matches(Catalogue[i], query)
    ensures SuggestionsFor(query) == []
  {
  }

  /** The case of the query does not change the suggestions. */
  lemma CaseInsensitive(query: string)
    ensures SuggestionsFor(Text.Lower(query)) == SuggestionsFor(query)
  {
    MatchesIgnoreCase(query);
    assert |Text.Lower(query)| == |query|;
  }

  lemma MatchesIgnoreCase(query: string)
    ensures AllMatches(Text.Lower(query)) == AllMatches(query)
  {
    var lq := Text.Lower(query);
    Text.LowerIdempotent(query);
    forall s: Suggestion
      ensures Matches(s, lq) == Matches(s, query)
    {
    }
    Seqs.FilterCongruent((s: Suggestion) => Matches(s, lq),
                         (s: Suggestion) => Matches(s, query), Catalogue);
  }

  // ---------------------------------------------------------------------
  // The box's state

  datatype SearchState = SearchState(
    query: string,
    suggestions: seq<Suggestion>,
    showSuggestions: bool,
    selectedIndex: int)

  /** The cursor is either -1 (nothing highlighted) or a shown position. */
  predicate Valid(st: SearchState) {
    -1 <= st.selectedIndex < |st.suggestions|
  }

  const Initial := SearchState("", [], false, -1)

  /** A call the box makes to its page. */
  datatype Effect = NoEffect | OnSearch(query: string) | OnServiceSelect(service: string)

  datatype Outcome = Outcome(state: SearchState, effect: Effect)

  /** `handleInputChange(value)`. */
  function InputChange(st: SearchState, value: string): (r: SearchState)
    ensures Valid(r) && r.selectedIndex == -1
    ensures r.query == value && r.suggestions == SuggestionsFor(value)
    ensures r.showSuggestions <==> |value| > 0
  {
    SearchState(value, SuggestionsFor(value), |value| > 0, -1)
  }

  /** `handleSuggestionClick(s)`: the query becomes the suggestion's text and
      the panel closes; a service goes to `onServiceSelect` when the page
      provided one, everything else to `onSearch`. */
  function SuggestionClick(st: SearchState, s: Suggestion, hasServiceHandler: bool): (o: Outcome)
    ensures Valid(st) ==> Valid(o.state)
    ensures o.state.query == s.text && !o.state.showSuggestions && o.state.selectedIndex == -1
    ensures o.state.suggestions == st.suggestions
    ensures o.effect == (if s.kind == Service && hasServiceHandler then OnServiceSelect(s.text) else OnSearch(s.text))
  {
    var next := st.(query := s.text, showSuggestions := false, selectedIndex := -1);
    if s.kind == Service && hasServiceHandler then Outcome(next, OnServiceSelect(s.text))
    else Outcome(next, OnSearch(s.text))
  }

  /** `handleSearch`: a query that is blank after trimming does nothing;
      otherwise the trimmed query goes to `onSearch` and the panel closes. */
  function Search(st: SearchState): (o: Outcome)
    ensures Valid(st) ==> Valid(o.state)
    ensures o.effect.NoEffect? <==> forall k :: 0 <= k < |st.query| ==> Text.IsTrimSpace(st.query[k])
    ensures o.effect.NoEffect? ==> o.state == st
    ensures o.effect.OnSearch? ==> o.effect.query == Text.Trim(st.query) && |o.effect.query| > 0
    ensures o.effect.OnSearch? ==> o.state == st.(showSuggestions := false)
    ensures !o.effect.OnServiceSelect?
  {
    Text.TrimEmptyIff(st.query);
    var q := Text.Trim(st.query);
    if |q| > 0 then Outcome(st.(showSuggestions := false), OnSearch(q)) else Outcome(st, NoEffect)
  }

  /** What `onSearch` receives is itself trimmed: searching it again would
      send the same text. */
  lemma SearchedQueryIsTrimmed(st: SearchState)
    requires Search(st).effect.OnSearch?
    ensures Text.Trim(Search(st).effect.query) == Search(st).effect.query
  {
    Text.TrimIdempotent(st.query);
  }

  datatype Key = ArrowDown | ArrowUp | Enter | Escape | OtherKey

  /** `handleKeyDown(key)`. */
  function KeyDown(st: SearchState, key: Key, hasServiceHandler: bool): (o: Outcome)
    ensures Valid(st) ==> Valid(o.state)
    ensures !st.showSuggestions ==> o == Outcome(st, NoEffect)
    ensures key == Escape && st.showSuggestions ==>
              o == Outcome(st.(showSuggestions := false, selectedIndex := -1), NoEffect)
    ensures (key == ArrowDown || key == ArrowUp) ==>
              o.effect == NoEffect && o.state == st.(selectedIndex := o.state.selectedIndex)
    ensures key == OtherKey ==> o == Outcome(st, NoEffect)
  {
    if !st.showSuggestions then Outcome(st, NoEffect)
    else
      match key
      case ArrowDown =>
        var i := if st.selectedIndex < |st.suggestions| - 1 then st.selectedIndex + 1 else st.selectedIndex;
        Outcome(st.(selectedIndex := i), NoEffect)
      case ArrowUp =>
        var i := if st.selectedIndex > 0 then st.selectedIndex - 1 else -1;
        Outcome(st.(selectedIndex := i), NoEffect)
      case Enter =>
        if 0 <= st.selectedIndex < |st.suggestions| then
          SuggestionClick(st, st.suggestions[st.selectedIndex], hasServiceHandler)
        else Search(st)
      case Escape => Outcome(st.(showSuggestions := false, selectedIndex := -1), NoEffect)
      case OtherKey => Outcome(st, NoEffect)
  }

  /** The arrow keys move the cursor one place at a time within
      [-1, number shown - 1]: down stops at the last suggestion, up stops at
      -1 (nothing highlighted). */
  lemma ArrowKeys(st: SearchState, h: bool)
    requires Valid(st) && st.showSuggestions
    ensures st.selectedIndex < |st.suggestions| - 1 ==>
              KeyDown(st, ArrowDown, h).state.selectedIndex == st.selectedIndex + 1
    ensures st.selectedIndex == |st.suggestions| - 1 ==>
              KeyDown(st, ArrowDown, h).state.selectedIndex == st.selectedIndex
    ensures st.selectedIndex > 0 ==> KeyDown(st, ArrowUp, h).state.selectedIndex == st.selectedIndex - 1
    ensures st.selectedIndex <= 0 ==> KeyDown(st, ArrowUp, h).state.selectedIndex == -1
  {
  }

  /** Enter on a highlighted suggestion chooses it; with nothing highlighted
      it submits the query. */
  lemma EnterKey(st: SearchState, h: bool)
    requires Valid(st) && st.showSuggestions
    ensures st.selectedIndex >= 0 ==>
              KeyDown(st, Enter, h) == SuggestionClick(st, st.suggestions[st.selectedIndex], h)
    ensures st.selectedIndex == -1 ==> KeyDown(st, Enter, h) == Search(st)
  {
  }

  /** With the panel open and the cursor on neither the last suggestion nor
      beyond it, one press of down followed by one press of up returns to
      the same state: neither press had to stop at an end. */
  lemma DownThenUp(st: SearchState, h: bool)
    requires Valid(st) && st.showSuggestions && 0 <= st.selectedIndex < |st.suggestions| - 1
    ensures KeyDown(KeyDown(st, ArrowDown, h).state, ArrowUp, h).state == st
  {
  }

  /** The clear button: empty query, no suggestions, panel closed, cursor
      reset; then the field is focused again. When the click had taken the
      focus away from the field (`refocused`), the field's focus handler
      runs with the query of the render the button belonged to, which was
      not empty since the button is only shown with a query, and so opens
      the panel again over an empty list. */
  function Clear(st: SearchState, refocused: bool): (r: SearchState)
    ensures Valid(r)
    ensures r.query == "" && r.suggestions == [] && r.selectedIndex == -1
    ensures r.showSuggestions <==> refocused && |st.query| > 0
    ensures !refocused || |st.query| == 0 ==> r == Initial
  {
    var cleared := SearchState("", [], false, -1);
    if refocused && |st.query| > 0 then cleared.(showSuggestions := true) else cleared
  }

  /** Whether or not the panel was reopened, a cleared box shows no list and
      no key has any effect on the page; after any key the box is still
      cleared. */
  lemma ClearedBoxIsInert(st: SearchState, refocused: bool, key: Key, h: bool)
    ensures |Clear(st, refocused).suggestions| == 0
    ensures KeyDown(Clear(st, refocused), key, h).effect == NoEffect
    ensures KeyDown(Clear(st, refocused), key, h).state.query == ""
    ensures KeyDown(Clear(st, refocused), key, h).state.suggestions == []
    ensures KeyDown(Clear(st, refocused), key, h).state.selectedIndex == -1
  {
  }

  /** Focusing the field reopens the panel when there is a query. */
  function Focus(st: SearchState): (r: SearchState)
    ensures Valid(st) ==> Valid(r)
    ensures r.showSuggestions <==> st.showSuggestions || |st.query| > 0
    ensures r.query == st.query && r.suggestions == st.suggestions && r.selectedIndex == st.selectedIndex
  {
    if |st.query| > 0 then st.(showSuggestions := true) else st
  }

  /** Every user action the box handles. */
  datatype Action =
    | Type(value: string)
    | Press(key: Key)
    | Click(suggestion: Suggestion)
    | ClickClear(refocused: bool)
    | FocusField

  function Handle(st: SearchState, a: Action, hasServiceHandler: bool): (o: Outcome)
    ensures Valid(st) ==> Valid(o.state)
  {
    match a
    case Type(v) => Outcome(InputChange(st, v), NoEffect)
    case Press(k) => KeyDown(st, k, hasServiceHandler)
    case Click(s) => SuggestionClick(st, s, hasServiceHandler)
    case ClickClear(refocused) => Outcome(Clear(st, refocused), NoEffect)
    case FocusField => Outcome(Focus(st), NoEffect)
  }

  /** Any sequence of actions from the initial state keeps the cursor in
      range, and every shown list comes from the catalogue, in order, with
      at most eight entries. */
  predicate Reachable(st: SearchState) {
    Valid(st) && |st.suggestions| <= MaxSuggestions && Seqs.IsSubseq(st.suggestions, Catalogue)
  }

  lemma HandleKeepsReachable(st: SearchState, a: Action, h: bool)
    requires Reachable(st)
    ensures Reachable(Handle(st, a, h).state)
  {
  }

  function RunActions(st: SearchState, actions: seq<Action>, h: bool): (r: SearchState)
    decreases |actions|
  {
    if |actions| == 0 then st else RunActions(Handle(st, actions[0], h).state, actions[1..], h)
  }

  lemma {:induction false} RunKeepsReachable(st: SearchState, actions: seq<Action>, h: bool)
    requires Reachable(st)
    ensures Reachable(RunActions(st, actions, h))
    decreases |actions|
  {
    if |actions| > 0 {
      HandleKeepsReachable(st, actions[0], h);
      RunKeepsReachable(Handle(st, actions[0], h).state, actions[1..], h);
    }
  }

  lemma InitialIsReachable()
    ensures Reachable(Initial)
  {
  }
}

=== FILE: text.dfy ===
/** String helpers the components rely on from JavaScript: case folding,
    `includes`, `trim`, the `\d` character class and number-to-text
    conversion. Strings are sequences of Unicode characters rather than
    JavaScript's UTF-16 code units; case folding is modelled on ASCII
    letters only. */
module Text {

  /** The characters matched by `\d` in a regular expression without the
      `u` flag: the ASCII digits. */
  predicate IsDigit(c: char) {
    '0' <= c <= '9'
  }

  /** The characters `String.prototype.trim` removes: the ECMAScript
      WhiteSpace and LineTerminator code points (tab, vertical tab, form
      feed, space, no-break space, byte order mark, the Unicode space
      separators, line feed, carriage return, line and paragraph
      separators). */
  predicate IsTrimSpace(c: char) {
    || c == '\t' || c == '\U{000B}' || c == '\U{000C}' || c == ' '
    || c == '\U{00A0}' || c == '\U{FEFF}' || c == '\U{1680}'
    || ('\U{2000}' <= c <= '\U{200A}')
    || c == '\U{202F}' || c == '\U{205F}' || c == '\U{3000}'
    || c == '\n' || c == '\r' || c == '\U{2028}' || c == '\U{2029}'
  }

  /** ASCII lower-casing of one character. */
  function LowerChar(c: char): (r: char)
    ensures 'A' <= c <= 'Z' ==> 'a' <= r <= 'z'
    ensures !('A' <= c <= 'Z') ==> r == c
  {
    if 'A' <= c <= 'Z' then (c as int - 'A' as int + 'a' as int) as char else c
  }

  /** `s.toLowerCase()` restricted to ASCII letters. */
  function Lower(s: string): (r: string)
    ensures |r| == |s|
    ensures forall i :: 0 <= i < |s| ==> r[i] == LowerChar(s[i])
  {
    seq(|s|, i requires 0 <= i < |s| => LowerChar(s[i]))
  }

  /** Lower-casing leaves no upper-case ASCII letter, so doing it twice
      changes nothing. */
  lemma LowerIdempotent(s: string)
    ensures Lower(Lower(s)) == Lower(s)
  {
  }

  /** `hay.includes(needle)`: some window of `hay` equals `needle`. The
      empty needle is contained in every string. */
  predicate Contains(hay: string, needle: string)
    decreases |hay|
  {
    |needle| <= |hay| && (hay[..|needle|] == needle || Contains(hay[1..], needle))
  }

  /** `Contains` holds exactly when `needle` occurs at some position. */
  lemma {:induction false} ContainsAt(hay: string, needle: string, i: nat)
    requires i + |needle| <= |hay| && hay[i..i + |needle|] == needle
    ensures Contains(hay, needle)
    decreases i
  {
    if i > 0 {
      assert hay[1..][i - 1..i - 1 + |needle|] == hay[i..i + |needle|];
      ContainsAt(hay[1..], needle, i - 1);
    }
  }

  /** ... and when it holds, a position where `needle` occurs exists. */
  lemma {:induction false} ContainsWitness(hay: string, needle: string) returns (i: nat)
    requires Contains(hay, needle)
    ensures i + |needle| <= |hay| && hay[i..i + |needle|] == needle
    decreases |hay|
  {
    if hay[..|needle|] == needle {
      i := 0;
    } else {
      var j := ContainsWitness(hay[1..], needle);
      assert hay[1..][j..j + |needle|] == hay[j + 1..j + 1 + |needle|];
      i := j + 1;
    }
  }

  /** `s` with leading trim-space characters removed. */
  function TrimStart(s: string): (r: string)
    ensures |r| <= |s| && r == s[|s| - |r|..]
    ensures forall k :: 0 <= k < |s| - |r| ==> IsTrimSpace(s[k])
    ensures |r| > 0 ==> !IsTrimSpace(r[0])
    decreases |s|
  {
    if |s| > 0 && IsTrimSpace(s[0]) then TrimStart(s[1..]) else s
  }

  /** `s` with trailing trim-space characters removed. */
  function TrimEnd(s: string): (r: string)
    ensures |r| <= |s| && r == s[..|r|]
    ensures forall k :: |r| <= k < |s| ==> IsTrimSpace(s[k])
    ensures |r| > 0 ==> !IsTrimSpace(r[|r| - 1])
    decreases |s|
  {
    if |s| > 0 && IsTrimSpace(s[|s| - 1]) then TrimEnd(s[..|s| - 1]) else s
  }

  /** `s.trim()`. */
  function Trim(s: string): (r: string)
    ensures |r| <= |s|
    ensures |r| > 0 ==> !IsTrimSpace(r[0]) && !IsTrimSpace(r[|r| - 1])
    ensures exists a, b :: 0 <= a <= b <= |s| && r == s[a..b]
  {
    var t := TrimStart(s);
    var r := TrimEnd(t);
    assert r == s[|s| - |t|..|s| - |t| + |r|];
    r
  }

  /** Trimming an already trimmed string changes nothing. */
  lemma TrimIdempotent(s: string)
    ensures Trim(Trim(s)) == Trim(s)
  {
    var r := Trim(s);
    assert TrimStart(r) == r;
    assert TrimEnd(r) == r;
  }

  /** The trimmed string is empty exactly when every character is a
      trim-space character (the falsy case of `query.trim()`). */
  lemma TrimEmptyIff(s: string)
    ensures Trim(s) == "" <==> forall k :: 0 <= k < |s| ==> IsTrimSpace(s[k])
  {
    var t := TrimStart(s);
    if !forall k :: 0 <= k < |s| ==> IsTrimSpace(s[k]) {
      var k :| 0 <= k < |s| && !IsTrimSpace(s[k]);
      assert |t| > 0 && t[k - (|s| - |t|)] == s[k];
      assert TrimEnd(t) == t[..|TrimEnd(t)|];
    }
  }

  /** The ASCII digit for a value below ten. */
  function DigitChar(d: nat): (c: char)
    requires d < 10
    ensures IsDigit(c) && c as int - '0' as int == d
  {
    ('0' as int + d) as char
  }

  /** The decimal rendering JavaScript gives a non-negative integer. */
  function DecimalString(n: nat): (r: string)
    ensures |r| > 0
    ensures forall k :: 0 <= k < |r| ==> IsDigit(r[k])
    ensures |r| > 1 ==> r[0] != '0'
    decreases n
  {
    if n < 10 then [DigitChar(n)] else DecimalString(n / 10) + [DigitChar(n % 10)]
  }

  /** The value of a string of decimal digits (the reading a caller would
      make of `DecimalString`'s output). */
  function DecimalValue(s: string): (v: nat)
    requires forall k :: 0 <= k < |s| ==> IsDigit(s[k])
    decreases |s|
  {
    if |s| == 0 then 0
    else
      assert IsDigit(s[|s| - 1]);
      DecimalValue(s[..|s| - 1]) * 10 + (s[|s| - 1] as int - '0' as int)
  }

  /** Reading back a rendered number gives the number. */
  lemma {:induction false} DecimalRoundTrip(n: nat)
    ensures DecimalValue(DecimalString(n)) == n
    decreases n
  {
    if n >= 10 {
      var s := DecimalString(n);
      assert s[..|s| - 1] == DecimalString(n / 10);
      DecimalRoundTrip(n / 10);
    }
  }

  /** The rendering JavaScript gives an integer inside a template literal. */
  function IntString(i: int): (r: string)
    ensures |r| > 0
    ensures i < 0 <==> r[0] == '-'
  {
    if i < 0 then "-" + DecimalString(-i) else DecimalString(i)
  }
}

=== FILE: toast_system.dfy ===
/** The portal's notification list: adding a toast (with its default
    duration and the decision to schedule its automatic removal), removing
    toasts by id, clearing the list, and the preset civic notices. The
    random id, the timers and the browser notification mirror are outside
    the model: the id is a parameter, and a scheduled removal is reported as
    the delay after which `RemoveToast` is applied. */
module ToastSystem {
  import opened Wrappers
  import Seqs
  import Text

  datatype ToastType = Success | Error | Warning | Info

  /** An action button; its click handler is outside the model. */
  datatype ToastAction = ToastAction(buttonLabel: string)

  datatype Toast = Toast(
    id: string,
    kind: ToastType,
    title: string,
    message: string,
    duration: Option<int>,
    action: Option<ToastAction>,
    persistent: bool)

  /** What a caller passes to `addToast`: a toast without its id. An absent
      `persistent` flag behaves as false. */
  datatype ToastOptions = ToastOptions(
    kind: ToastType,
    title: string,
    message: string,
    duration: Option<int>,
    action: Option<ToastAction>,
    persistent: bool)

  /** The duration a toast gets when the caller gives none, in milliseconds. */
  const DefaultDuration: int := 5000

  /** The toast `addToast` builds: the caller's fields over the defaults. */
  function NewToast(id: string, opts: ToastOptions): (t: Toast)
    ensures t.id == id
    ensures t.duration == Some(opts.duration.GetOr(DefaultDuration))
    ensures opts.duration.Some? ==> t.duration == opts.duration
    ensures opts.duration.None? ==> t.duration == Some(DefaultDuration)
    ensures t.kind == opts.kind && t.title == opts.title && t.message == opts.message
    ensures t.action == opts.action && t.persistent == opts.persistent
  {
    Toast(id, opts.kind, opts.title, opts.message,
          Some(opts.duration.GetOr(DefaultDuration)), opts.action, opts.persistent)
  }

  /** Whether `addToast` schedules the automatic removal, and after how many
      milliseconds: only for a toast that is not persistent and whose
      duration is non-zero (a zero duration is falsy). */
  function RemovalDelay(t: Toast): (d: Option<int>)
    ensures d.Some? <==> !t.persistent && t.duration.Some? && t.duration.value != 0
    ensures d.Some? ==> d == t.duration
  {
    if !t.persistent && t.duration.Some? && t.duration.value != 0 then t.duration else None
  }

  /** The provider's state: the toast list and the notification toggle. */
  datatype Provider = Provider(toasts: seq<Toast>, notificationsEnabled: bool)

  const InitialProvider := Provider([], true)

  datatype Added = Added(provider: Provider, removeAfter: Option<int>)

  /** `addToast`: appends one new toast at the end and reports whether its
      removal was scheduled. */
  function AddToast(p: Provider, id: string, opts: ToastOptions): (a: Added)
    ensures |a.provider.toasts| == |p.toasts| + 1
    ensures a.provider.toasts[..|p.toasts|] == p.toasts
    ensures a.provider.toasts[|p.toasts|] == NewToast(id, opts)
    ensures a.provider.notificationsEnabled == p.notificationsEnabled
    ensures a.removeAfter.Some? <==> !opts.persistent && opts.duration.GetOr(DefaultDuration) != 0
    ensures a.removeAfter.Some? ==> a.removeAfter.value == opts.duration.GetOr(DefaultDuration)
  {
    var t := NewToast(id, opts);
    Added(p.(toasts := p.toasts + [t]), RemovalDelay(t))
  }

  /** A toast added without a duration and without the persistent flag is
      removed after 5000 ms; a persistent toast never is. */
  lemma DefaultTimeout(p: Provider, id: string, opts: ToastOptions)
    ensures opts.duration.None? && !opts.persistent ==> AddToast(p, id, opts).removeAfter == Some(5000)
    ensures opts.persistent ==> AddToast(p, id, opts).removeAfter.None?
  {
  }

  /** `removeToast(id)`: drops every toast with that id, keeping the others
      in order. */
  function RemoveToast(toasts: seq<Toast>, id: string): (r: seq<Toast>)
    ensures forall i :: 0 <= i < |r| ==> r[i].id != id
    ensures forall i :: 0 <= i < |toasts| && toasts[i].id != id ==> toasts[i] in r
    ensures forall t :: t in r ==> t in toasts
    ensures forall t :: multiset(r)[t] == if t.id != id then multiset(toasts)[t] else 0
    ensures Seqs.IsSubseq(r, toasts)
  {
    Seqs.FilterIsSubseq((t: Toast) => t.id != id, toasts);
    Seqs.Filter((t: Toast) => t.id != id, toasts)
  }

  /** Removing an id that no toast has changes nothing. */
  lemma RemoveAbsentIsNoOp(toasts: seq<Toast>, id: string)
    requires forall i :: 0 <= i < |toasts| ==> toasts[i].id != id
    ensures RemoveToast(toasts, id) == toasts
  {
    Seqs.FilterKeepsAll((t: Toast) => t.id != id, toasts);
  }

  /** Removing the same id twice is removing it once (a timer firing after
      the user already closed the toast does nothing). */
  lemma RemoveIdempotent(toasts: seq<Toast>, id: string)
    ensures RemoveToast(RemoveToast(toasts, id), id) == RemoveToast(toasts, id)
  {
    Seqs.FilterIdempotent((t: Toast) => t.id != id, toasts);
  }

  /** Adding a toast under a fresh id and then removing that id (the
      scheduled timer, or the close button) restores the list. */
  lemma AddThenRemove(p: Provider, id: string, opts: ToastOptions)
    requires forall i :: 0 <= i < |p.toasts| ==> p.toasts[i].id != id
    ensures RemoveToast(AddToast(p, id, opts).provider.toasts, id) == p.toasts
  {
    var t := NewToast(id, opts);
    Seqs.FilterAppend((x: Toast) => x.id != id, p.toasts, [t]);
    RemoveAbsentIsNoOp(p.toasts, id);
  }

  /** Removing one id does not disturb toasts with other ids, so removals of
      different ids can happen in either order. */
  lemma RemoveCommutes(toasts: seq<Toast>, a: string, b: string)
    ensures RemoveToast(RemoveToast(toasts, a), b) == RemoveToast(RemoveToast(toasts, b), a)
  {
    RemoveBoth(toasts, a, b);
    RemoveBoth(toasts, b, a);
    Seqs.FilterCongruent((t: Toast) => t.id != a && t.id != b, (t: Toast) => t.id != b && t.id != a, toasts);
  }

  lemma {:induction false} RemoveBoth(toasts: seq<Toast>, a: string, b: string)
    ensures RemoveToast(RemoveToast(toasts, a), b) == Seqs.Filter((t: Toast) => t.id != a && t.id != b, toasts)
    decreases |toasts|
  {
    if |toasts| > 0 {
      var head, tail := toasts[0], toasts[1..];
      RemoveBoth(tail, a, b);
      if head.id != a {
        assert RemoveToast(toasts, a) == [head] + RemoveToast(tail, a);
        Seqs.FilterAppend((t: Toast) => t.id != b, [head], RemoveToast(tail, a));
      } else {
        assert RemoveToast(toasts, a) == RemoveToast(tail, a);
      }
    }
  }

  /** Removal on the provider's list. */
  function RemoveFromProvider(p: Provider, id: string): (r: Provider)
    ensures r.toasts == RemoveToast(p.toasts, id)
    ensures r.notificationsEnabled == p.notificationsEnabled
  {
    p.(toasts := RemoveToast(p.toasts, id))
  }

  /** `clearAllToasts`: no toast remains; the notification toggle stays. */
  function ClearAllToasts(p: Provider): (r: Provider)
    ensures |r.toasts| == 0
    ensures r.notificationsEnabled == p.notificationsEnabled
  {
    p.(toasts := [])
  }

  /** Clearing leaves nothing for any later removal to do. */
  lemma ClearAllThenRemove(p: Provider, id: string)
    ensures RemoveFromProvider(ClearAllToasts(p), id) == ClearAllToasts(p)
  {
  }

  /** The bell button flips the notification mirror and leaves the list. */
  function ToggleNotifications(p: Provider): (r: Provider)
    ensures r.toasts == p.toasts
    ensures r.notificationsEnabled != p.notificationsEnabled
  {
    p.(notificationsEnabled := !p.notificationsEnabled)
  }

  // ---------------------------------------------------------------------
  // Preset civic notices

  function RequestSubmitted(trackingNumber: string): ToastOptions {
    ToastOptions(Success, "Request Submitted Successfully!",
      "Your request has been submitted with tracking number " + trackingNumber
        + ". You'll receive updates via email.",
      None, Some(ToastAction("Track Request")), false)
  }

  function RequestUpdated(trackingNumber: string, status: string): ToastOptions {
    ToastOptions(Info, "Request Status Updated",
      "Request " + trackingNumber + " status has been updated to: " + status,
      None, Some(ToastAction("View Details")), false)
  }

  function RequestResolved(trackingNumber: string): ToastOptions {
    ToastOptions(Success, "Request Resolved!",
      "Your request " + trackingNumber
        + " has been successfully resolved. Thank you for helping keep Fort Wayne clean and safe!",
      None, Some(ToastAction("Rate Service")), false)
  }

  function LocationDetected(address: string): ToastOptions {
    ToastOptions(Info, "Location Detected",
      "We found you at " + address + ". Is this correct?",
      Some(3000), None, false)
  }

  /** The noun of the upload notice: plural exactly when more than one
      photo was uploaded. */
  function PhotoNoun(count: int): (w: string)
    ensures w == "photos" <==> count > 1
    ensures w == "photo" <==> count <= 1
  {
    if count > 1 then "photos" else "photo"
  }

  /** The upload notice: the count, then the noun, and a two-second
      lifetime. */
  function PhotoUploaded(count: int): (o: ToastOptions)
    ensures |o.message| > |Text.IntString(count)|
    ensures o.message[..|Text.IntString(count)|] == Text.IntString(count)
    ensures o.message[|Text.IntString(count)|..] == " " + PhotoNoun(count) + " uploaded successfully."
    ensures o.kind == Success && o.title == "Photos Uploaded" && o.action.None?
    ensures o.duration == Some(2000) && !o.persistent
  {
    var n := Text.IntString(count);
    var rest := " " + PhotoNoun(count) + " uploaded successfully.";
    var m := n + rest;
    assert m[..|n|] == n;
    assert m[|n|..] == rest;
    ToastOptions(Success, "Photos Uploaded", m, Some(2000), None, false)
  }

  function NetworkError(): ToastOptions {
    ToastOptions(Error, "Connection Error",
      "Unable to connect to the server. Please check your internet connection and try again.",
      None, Some(ToastAction("Retry")), true)
  }

  function MaintenanceMode(): ToastOptions {
    ToastOptions(Warning, "Scheduled Maintenance",
      "The system will be under maintenance from 2:00 AM to 4:00 AM EST. Some features may be temporarily unavailable.",
      None, None, true)
  }

  /** The request notices carry no duration, so each is removed after the
      5000 ms default. */
  lemma RequestNoticesUseDefault(id: string, tn: string, status: string)
    ensures RemovalDelay(NewToast(id, RequestSubmitted(tn))) == Some(DefaultDuration)
    ensures RemovalDelay(NewToast(id, RequestUpdated(tn, status))) == Some(DefaultDuration)
    ensures RemovalDelay(NewToast(id, RequestResolved(tn))) == Some(DefaultDuration)
  {
  }

  /** The location notice is removed after 3000 ms and the upload notice
      after 2000 ms, whatever their text. */
  lemma ShortNoticeLifetimes(id: string, address: string, count: int)
    ensures RemovalDelay(NewToast(id, LocationDetected(address))) == Some(3000)
    ensures RemovalDelay(NewToast(id, PhotoUploaded(count))) == Some(2000)
  {
  }

  /** The network-error and maintenance notices stay until closed. */
  lemma PersistentNotices(id: string)
    ensures RemovalDelay(NewToast(id, NetworkError())).None?
    ensures RemovalDelay(NewToast(id, MaintenanceMode())).None?
  {
  }
}

=== FILE: wrappers.dfy ===
/** The optional value used wherever the portal's components accept an
    optional prop, an optional record field or a callback that may not fire. */
module Wrappers {

  datatype Option<+T> = None | Some(value: T) {

    /** Returns the value held in Some, or `default` when None. */
    function GetOr(default: T): (r: T)
      ensures Some? ==> r == value
      ensures None? ==> r == default
    {
      match this
      case Some(v) => v
      case None => default
    }
  }
}
